=== FILE: README.md ===
# Zenith Suite: spreadsheet evaluator, task board and slide deck, modelled in Dafny

This project models the logic of three panels of the Zenith Suite productivity app.

**Spreadsheet.** Each cell's raw text is turned into the text the grid shows:
- Text that does not start with `=` is shown as typed.
- A formula is searched, anywhere and without regard to case, for `=SUM(<letters><digits>:<letters><digits>)`. With no match it shows `#NAME?`.
- With a match, the cell shows the integer sum of the cells in the rectangle between the two corners. The rectangle is walked column by column. Each operand counts its leading number, or 0 when it has none.
- The evaluator memoises results. It keeps a set of the keys currently being evaluated. A key met again while on that set is read as `#REF!`, which counts 0.

The pass evaluates every key of the store. The formula bar shows the selected cell's raw text and writes edits back into it.

**Task board.** Tasks are laid out in one column per status, in the order `To Do`, `In Progress`, `Done`.
- Dropping a task onto a column sets its status.
- Deleting filters out an id.
- Adding appends a `To Do` task. Its id is `ZEN-<n+1>`. Here `n` is the highest number `parseInt` reads from the ids in use, or 0 when none parses. Each id is read from `split('-')[1] || '0'`: the piece between its first and second `-`, with a missing or empty piece read as `0`.

**Slide deck.** An editor over a list of slides, with one active slide. It has handlers to add, select, delete and update slides. It also has a full-screen presentation that the keyboard steps through. The index stops at the first and last slides, and Escape leaves the presentation.

Modules:
- `Options`: the option type.
- `Text`: character classes, decimal rendering, and the leading-integer reader behind `parseInt` and the integer part of `parseFloat`.
- `Formula`: the SUM matcher and the range's keys.
- `Evaluator`: `evaluateCell` as a function over an explicit state of results and evaluation stack.
- `Sheet`: the whole pass and what its results mean.
- `SheetExamples`: the seed sheet and small documented sheets.
- `FormulaBar`: the formula bar.
- `Lists`: the order-keeping filter.
- `JiraBoard`: the task board.
- `Presentation`: the slide deck.

A key met on the evaluation stack is read as `#REF!` only by the SUM that meets it, where it counts 0. Such a key is never memoised as `#REF!`, so `#REF!` appears in the grid only when a cell holds that text (`Sheet.RefErrorOnlyTyped`). Only the operand met on the stack counts 0, and which key is met there depends on where the pass entered the cycle. So on a sheet with circular references the values can depend on the order in which `Object.keys` enumerates the cells (`SheetExamples.CycleOrderMatters`).

## Model

| member | source | states |
|---|---|---|
| Evaluator.Eval | components/Spreadsheet.tsx:24-64 | A memoised key returns its result with the state untouched. A key on the stack yields `#REF!` with the state untouched. Any other key is memoised with the value returned. Every call leaves the stack as it found it, keeps every earlier result, and memoises only keys that were not on the stack. |
| Evaluator.EvalRange | components/Spreadsheet.tsx:47-54 | Walking a range keeps the stack and earlier results. Afterwards every key of the range is memoised or was on the stack. |
| Evaluator.EvalRangeTotal | components/Spreadsheet.tsx:51-52 | The running sum equals the sum of the coerced values the range's keys have once the walk is over. A key met on the stack (`#REF!`) contributes 0 and stays unmemoised. |
| Evaluator.EvalSum | components/Spreadsheet.tsx:55-62 | A SUM pops its key, memoises its result under it, and leaves every key of its range memoised or on the stack. |
| Evaluator.EvalSumMemo | components/Spreadsheet.tsx:61-62 | Leaving a SUM adds exactly one entry, its own rendered total, to the results the range walk left. |
| Evaluator.EvalSumValue | components/Spreadsheet.tsx:47-55 | A SUM shows the rendered total of its range as the results stand afterwards, its own key counting 0. |
| Evaluator.EvalValue | components/Spreadsheet.tsx:30-58 | A fresh key shows its raw text (empty for an absent key) when it does not start with `=`, `#NAME?` for a formula without a SUM match, and otherwise the rendered total of its rectangle. |
| Sheet.EvalConsistent | components/Spreadsheet.tsx:24-64 | Evaluating a key keeps every result in agreement with its cell: raw text, `#NAME?`, or a canonical integer numeral for a SUM. |
| Sheet.EvaluateSound | components/Spreadsheet.tsx:66-67 | After the pass every enumerated key has a result, and every result agrees with its cell's text. |
| Sheet.RefErrorOnlyTyped | components/Spreadsheet.tsx:26 | No result of the pass is `#REF!` unless the cell's raw text is `#REF!`: a circular reference is never memoised as an error. |
| Sheet.EvalSettles | components/Spreadsheet.tsx:24-64 | On a sheet whose SUM references form no cycle, evaluating a key memoises it, and every result stays settled: each SUM shows the total of the results of its whole range. |
| Sheet.SettledUnique | components/Spreadsheet.tsx:47-55 | On an acyclic sheet two settled sets of results agree on every key both hold. |
| Sheet.EvaluateAcyclic | components/Spreadsheet.tsx:20-68 | Without circular references every SUM shows the total of what its range shows, and two passes agree on every key both evaluated. |
| Sheet.EvaluateOrderFree | components/Spreadsheet.tsx:66 | Without circular references, two passes that each visit every cell show the same text at every grid key, whatever order `Object.keys` enumerates the cells in. |
| Formula.MatchAtIff | components/Spreadsheet.tsx:34-35 | The matcher at a position succeeds with corners `m` exactly when the case-insensitive SUM pattern matches there with those captures. |
| Formula.FindSumLeftmost | components/Spreadsheet.tsx:34-35 | The search finds nothing exactly when the pattern matches at no position. Otherwise it returns the captures of a match with no match at any earlier position. |
| Formula.ClassifyLeadingSum | components/Spreadsheet.tsx:33-37 | A formula that begins with a SUM match is read as that SUM. |
| Formula.SumKeysRectangle | components/Spreadsheet.tsx:44-50 | A SUM visits one key per cell of the rectangle between the minimum and maximum column and row of its corners. The columns are the first letter's code minus 65. Cell `(c, r)` comes after all earlier columns and the earlier rows of its column |
| Formula.SumKeysGrid | components/Spreadsheet.tsx:47-50 | The walk has `width * height` keys, and cell `(c, r)` is its key number `(c - cMin) * height + (r - rMin)`: the inner loop runs over the rows of one column before the outer loop moves to the next. |
| Formula.SumKeysWithin | components/Spreadsheet.tsx:48-50 | A SUM visits no key outside that rectangle. |
| Formula.SumKeysSymmetric | components/Spreadsheet.tsx:48-49 | The keys a SUM visits do not depend on which corner is written first. |
| Text.CoerceOfIntToString | components/Spreadsheet.tsx:52-55 | A rendered total coerces back to itself, so a SUM's result counts as its value in an enclosing SUM. |
| Text.LeadingIntOfIntToString | components/Spreadsheet.tsx:52 | A rendered integer followed by non-digit text reads back as that integer. |
| Text.NatToStringDigits | components/Spreadsheet.tsx:55 | The rendering of a natural number is a non-empty digit string, with no superfluous leading zero, that denotes the number. |
| Text.NoLeadingInt | components/Spreadsheet.tsx:52 | Text starting with neither white space, a sign nor a digit (including `#REF!`, `#NAME?` and empty text) has no leading number and counts 0. |
| SheetExamples.SeedProfit | components/Spreadsheet.tsx:9-13 | With the seed data, `B4`, `C4` and `D4` show `1800`, `2100` and `2600`, whatever the enumeration order. |
| SheetExamples.SquareTotal | components/Spreadsheet.tsx:47-52 | `=SUM(A1:B2)` over `5`, an empty cell, `5` and `5` shows `15`: the empty cell counts 0. |
| SheetExamples.WordsTotal | components/Spreadsheet.tsx:52 | `=SUM(A1:B1)` over `x` and `3` shows `3`: text without a number counts 0. |
| SheetExamples.SelfReference | components/Spreadsheet.tsx:26 | A SUM whose range is exactly its own key shows `0`, not an error. |
| SheetExamples.MutualReference | components/Spreadsheet.tsx:26 | Two SUMs over each other's key both show `0` after the pass. |
| SheetExamples.LoopZero | components/Spreadsheet.tsx:26 | `A1 = =SUM(A1:A1)` shows `0`. |
| SheetExamples.CycleFromFirst | components/Spreadsheet.tsx:26 | With `a` summing `b`, and `b` summing `a` and a cell holding `7`, evaluating `a` first makes `b` count `a` as 0, so both show `7`. |
| SheetExamples.CycleFromSecond | components/Spreadsheet.tsx:26 | On the same sheet, evaluating `b` first makes `a` count `b` as 0, so `a` is memoised as `0`. |
| SheetExamples.CycleOrderMatters | components/Spreadsheet.tsx:66 | On that sheet the pass in order `a, b, c` shows `7` at `a`, and the pass in order `b, a, c` shows `0` there: with a cycle the grid depends on the enumeration order. |
| SheetExamples.CycleZero | components/Spreadsheet.tsx:26 | `A1 = =SUM(B1:B1)` with `B1 = =SUM(A1:A1)` shows `0` in both cells, in either enumeration order. |
| FormulaBar.Edit | components/Spreadsheet.tsx:70-73 | With a truthy selection an edit adds only the selected key to the store. With none the store is unchanged. |
| FormulaBar.EditReadsBack | components/Spreadsheet.tsx:70-73 | After an edit the bar shows exactly the typed text, and every other cell keeps its raw text. |
| FormulaBar.NoSelection | components/Spreadsheet.tsx:16 | With no selection the bar shows empty text, and typing changes nothing. |
| JiraBoard.Drop | components/JiraBoard.tsx:77-84 | Dropping keeps the length, the order, each task's id, title and description. It sets the status of exactly the tasks with the dragged id. |
| JiraBoard.DropIdempotent | components/JiraBoard.tsx:79-83 | Dropping the same task onto the same column twice is dropping it once. |
| JiraBoard.DropOtherColumn | components/JiraBoard.tsx:77-84 | A drop removes the dragged task from every other column and leaves those columns otherwise as they were, in order. |
| JiraBoard.DropTargetColumn | components/JiraBoard.tsx:77-84 | The target column holds the tasks it held that were not dragged, plus the dragged tasks with their new status. |
| JiraBoard.DropUnique | components/JiraBoard.tsx:77-84 | A drop keeps the ids distinct. |
| JiraBoard.Delete | components/JiraBoard.tsx:86-88 | A task remains exactly when it was on the board and has another id. |
| JiraBoard.DeleteConcat | components/JiraBoard.tsx:86-88 | Deleting distributes over concatenation, so the remaining tasks keep their order. |
| JiraBoard.DeleteIdempotent | components/JiraBoard.tsx:86-88 | Deleting an id twice is deleting it once. |
| JiraBoard.DeleteAbsent | components/JiraBoard.tsx:86-88 | Deleting an id no task has changes nothing. |
| JiraBoard.DeleteUnique | components/JiraBoard.tsx:86-88 | Deleting keeps the ids distinct. |
| JiraBoard.AddTask | components/JiraBoard.tsx:90-107 | A title that trims to nothing leaves the board as it is. Otherwise a `To Do` task with the drafts and the new id is appended after the unchanged tasks, the drafts are cleared, and the form closes. |
| JiraBoard.AddTaskUnique | components/JiraBoard.tsx:90-103 | Adding keeps the ids distinct. |
| JiraBoard.Numbers | components/JiraBoard.tsx:93 | The list holds the number of every id that parses, and nothing that is not some id's number. |
| JiraBoard.MaxOf | components/JiraBoard.tsx:94 | `Math.max` of a non-empty list is an element that no element exceeds. |
| JiraBoard.Highest | components/JiraBoard.tsx:93-94 | The highest number is at least every parsed id number, and it is 0 or some task's number. |
| JiraBoard.SplitJoin | components/JiraBoard.tsx:93 | Joining the pieces of `split('-')` with `-` gives back the id. |
| JiraBoard.JoinSplit | components/JiraBoard.tsx:93 | Splitting pieces free of `-` joined with `-` gives back the pieces. |
| JiraBoard.IdNumberNonNegative | components/JiraBoard.tsx:93 | A parsed id number is never negative: the segment after the first `-` holds no minus sign. |
| JiraBoard.NumberedId | components/JiraBoard.tsx:95 | `ZEN-<n>` reads back as `n` for every `n >= 0`. |
| JiraBoard.NextIdNumber | components/JiraBoard.tsx:93-95 | The new id reads back as the highest number plus one. |
| JiraBoard.NextIdFresh | components/JiraBoard.tsx:93-95 | The new id differs from every id on the board. |
| JiraBoard.ColumnsPartition | components/JiraBoard.tsx:124-128 | As multisets, the three columns together hold the board's tasks exactly, each in the column of its status. |
| JiraBoard.Layout | components/JiraBoard.tsx:124-128 | One column per status in enum order. Each holds exactly the board's tasks of its status, and together they hold every task exactly as often as it occurs on the board. |
| JiraBoard.Column | components/JiraBoard.tsx:128 | A task is in a column exactly when it is on the board with that column's status. |
| JiraBoard.InitialNextId | components/JiraBoard.tsx:6-11 | The first task added to the starting board gets `ZEN-5`. |
| Presentation.FindIndex | components/Presentation.tsx:44 | `findIndex` returns the first position holding the id, or -1 exactly when no slide has it. |
| Presentation.ActiveSlide | components/Presentation.tsx:22 | The editor shows a slide exactly when the active id names one, and then the first slide with that id. |
| Presentation.InitialWellFormed | components/Presentation.tsx:10-18 | The starting deck, with its first slide active, is well formed. |
| Presentation.ActiveShown | components/Presentation.tsx:22 | In a well-formed deck an active id is truthy and the editor has a slide to show. |
| Presentation.AddSlide | components/Presentation.tsx:24-28 | Adding appends `New Slide` with empty content and the given id after the unchanged slides, and makes it the active slide. |
| Presentation.AddSlideWellFormed | components/Presentation.tsx:24-28 | Adding keeps the deck well formed, and the editor then shows a slide. |
| Presentation.SelectWellFormed | components/Presentation.tsx:98 | Selecting a slide of the deck keeps it well formed. |
| Presentation.DeleteSlide | components/Presentation.tsx:30-36 | A slide remains exactly when it had another id. When the active slide is deleted, the first remaining slide becomes active, or none. Otherwise the active id stays. |
| Presentation.DeleteSlideWellFormed | components/Presentation.tsx:30-36 | Deleting keeps the deck well formed: the active id still names a slide, or is none. |
| Presentation.DeleteSlideKeepsOrder | components/Presentation.tsx:31 | Any two remaining slides keep their relative order. |
| Presentation.UpdateSlide | components/Presentation.tsx:38-41 | With a truthy active id, the named field of the slides with that id takes the value. Their other field and every other slide stay as they were. With none, nothing changes. |
| Presentation.UpdateSlideWellFormed | components/Presentation.tsx:38-41 | Updating keeps the deck well formed. |
| Presentation.StartPresentation | components/Presentation.tsx:43-46 | An empty deck cannot be presented. Otherwise presenting starts at the first position holding the active id, at -1 when no slide holds it, or at 0 with no active slide. |
| Presentation.StartWellFormed | components/Presentation.tsx:43-46 | Starting a well-formed deck keeps it well formed and puts the active slide on screen. |
| Presentation.KeyDown | components/Presentation.tsx:49-57 | Keys change neither the slides nor the active slide, and are ignored unless presenting. |
| Presentation.KeyDownWellFormed | components/Presentation.tsx:51-54 | While presenting, the index stays on a slide whatever key is pressed. |
| Presentation.KeySteps | components/Presentation.tsx:51-57 | Space steps like ArrowRight. Away from the ends a step moves by exactly one slide. Any other key changes nothing. |
| Presentation.ForwardBack | components/Presentation.tsx:51-54 | Before the last slide, a step forward then back returns to the same slide. |
| Presentation.BackForward | components/Presentation.tsx:51-54 | After the first slide, a step back then forward returns to the same slide. |
| Presentation.StepsSaturate | components/Presentation.tsx:51-54 | Stepping forward at the last slide, or back at the first, stays put. |
| Presentation.EscapeLeaves | components/Presentation.tsx:55-56 | Escape leaves the presentation, and a second Escape changes nothing. |

## Left out

- Numbers are integers. `parseFloat` and `sum.toString()` (Spreadsheet.tsx:52, 55) are modelled as `Text.Coerce`, the leading `[+-]?digits` reader, and `Text.IntToString`. Fractions, exponents, `Infinity`, `NaN` and floating-point rounding are not modelled.
- Row numbers: `parseInt` of a corner's digits and the loop counter `r++` (Spreadsheet.tsx:40, 42, 49) are JavaScript doubles. The model reads rows as unbounded natural numbers (`Formula.RowNumber`). In the source, a range whose larger row is 2^53 or more never ends, because `r++` at 2^53 rounds back to 2^53. The model does not show that hang: `Evaluator.Eval` finishes on such a range and shows its total. Rows of 10^21 or more, which `${r}` would render in exponent form, are not modelled either.
- `parseInt` and `Math.max` (JiraBoard.tsx:93-94) are modelled on unbounded integers. Precision loss beyond 2^53 is not modelled.
- White space skipped before a number, and by `trim` (JiraBoard.tsx:91), is the ASCII set: space, tab, line feed, carriage return, vertical tab and form feed. Other Unicode white space is not modelled.
- `Object.keys(cells)` (Spreadsheet.tsx:66) enumerates keys in insertion order. The order is a parameter of `Sheet.Evaluate`, and `Sheet.EvaluateAcyclic` shows that it does not matter without cycles.
- With a circular reference the order does matter (`SheetExamples.CycleOrderMatters`), so the model promises an order-free grid only for acyclic sheets (`Sheet.EvaluateOrderFree`); for a cyclic sheet it fixes no enumeration order and gives the values for whichever order is passed in.
- `key in evaluated` (Spreadsheet.tsx:25) also sees inherited object properties such as `toString`. The model's memo is a plain map.
- `Date.now()` for new slide ids (Presentation.tsx:25) is the `newId` parameter of `Presentation.AddSlide`.
- The drag data (JiraBoard.tsx:78) is the `id` parameter of `JiraBoard.Drop`.
- React state, memo hooks, the keydown listener's registration, and all rendering are left out. Each handler is a function from the old state to the new. The Present button's `disabled` (Presentation.tsx:83) becomes the empty-deck case of `Presentation.StartPresentation`. `Presentation.Select` is the sorter's click (Presentation.tsx:98).
- Presentation.AddSlideWellFormed, Presentation.DeleteSlideWellFormed: these require the deck not to be presenting, because the editor that holds these buttons is not rendered while presenting (Presentation.tsx:63-77). `AddSlideWellFormed` also requires a non-empty id, which a clock reading always is.
- Presentation.StartWellFormed: requires a well-formed deck. For an active id that names no slide, `findIndex` gives -1 and the presentation would start off the deck. `Presentation.StartPresentation` states that index of -1.
- SheetExamples.MutualReference: stated for the enumeration order that starts with `a`. `SheetExamples.CycleZero` covers both orders of the concrete two-cell cycle.
- The other panels (word processor, expenses, notes, to-do list, sidebar, app shell) are not part of this model.

=== FILE: evaluator.dfy ===
/** The spreadsheet's evaluation pass: every cell's raw text is turned into the text the grid
    shows, memoising results and detecting circular references with a set of keys currently
    being evaluated. */
module Evaluator {
  import opened Text
  import opened Formula

  /** The cell store: key (`A1`, `B2`, ...) to raw text as typed. */
  type Cells = map<string, string>

  /** Raw text of a cell; an absent cell reads as empty text. */
  function Raw(cells: Cells, key: string): string {
    if key in cells then cells[key] else ""
  }

  const RefError := "#REF!"
  const NameError := "#NAME?"

  /** The pass's mutable state: results so far (`evaluated`) and the keys on the evaluation
      stack (`processing`). */
  datatype State = State(memo: map<string, string>, processing: set<string>)

  /** Result of evaluating one cell, and of walking a range. */
  datatype Step = Step(value: string, st: State)
  datatype Walk = Walk(total: int, st: State)

  /** What a range key contributes to a sum once the walk is over: its coerced value if it has
      one, and 0 if it has none (a circular reference, read as `#REF!`). */
  function Contribution(memo: map<string, string>, k: string): int {
    if k in memo then Coerce(memo[k]) else 0
  }

  function Total(keys: seq<string>, memo: map<string, string>): int {
    if |keys| == 0 then 0 else Contribution(memo, keys[0]) + Total(keys[1..], memo)
  }

  /** `m2` keeps every entry of `m1`. */
  predicate Extends(m1: map<string, string>, m2: map<string, string>) {
    forall k :: k in m1 ==> k in m2 && m2[k] == m1[k]
  }

  /** The framing every step of the pass keeps: the stack is as it was, earlier results stay,
      and a key memoised meanwhile was not on the stack. */
  predicate Framed(before: State, after: State) {
    && after.processing == before.processing
    && Extends(before.memo, after.memo)
    && forall k :: k in after.memo && k !in before.memo ==> k !in before.processing
  }

  /** Evaluates one cell. A memoised key returns its result; a key on the stack is a circular
      reference; otherwise the key goes on the stack, its text is passed through, rejected, or
      summed over its range, and the result is memoised as the key leaves the stack. */
  function Eval(cells: Cells, key: string, st: State): (r: Step)
    ensures Framed(st, r.st)
    ensures key in st.memo ==> r.value == st.memo[key] && r.st == st
    ensures key !in st.memo && key in st.processing ==> r.value == RefError && r.st == st
    ensures key !in st.memo && key !in st.processing ==>
      key in r.st.memo && r.st.memo[key] == r.value
    decreases |cells.Keys - st.processing|, 0, 0
  {
    if key in st.memo then Step(st.memo[key], st)
    else if key in st.processing then Step(RefError, st)
    else
      var raw := Raw(cells, key);
      match Classify(raw)
      case Literal => Step(raw, State(st.memo[key := raw], st.processing))
      case Unknown => Step(NameError, State(st.memo[key := NameError], st.processing))
      case Sum(m) =>
        assert key in cells;
        var inner := State(st.memo, st.processing + {key});
        assert cells.Keys - inner.processing == (cells.Keys - st.processing) - {key};
        EvalSum(cells, key, SumKeys(m), inner)
  }

  /** The SUM branch of `Eval`, entered with `key` already pushed and the keys of its range:
      walk the range, render the total, pop `key` and memoise the rendering. */
  function EvalSum(cells: Cells, key: string, range: seq<string>, inner: State): (r: Step)
    requires key in inner.processing && key !in inner.memo
    ensures Framed(State(inner.memo, inner.processing - {key}), r.st)
    ensures key in r.st.memo && r.st.memo[key] == r.value
    ensures forall j :: j in range ==> j in r.st.memo || j in inner.processing
    decreases |cells.Keys - inner.processing|, 2, 0
  {
    var w := EvalRange(cells, range, inner);
    var v := IntToString(w.total);
    Step(v, State(w.st.memo[key := v], w.st.processing - {key}))
  }

  /** Evaluates the keys of a range in order, threading the state, and adds up their coerced
      values. */
  function EvalRange(cells: Cells, keys: seq<string>, st: State): (r: Walk)
    ensures Framed(st, r.st)
    ensures forall j :: j in keys ==> j in r.st.memo || j in st.processing
    decreases |cells.Keys - st.processing|, 1, |keys|
  {
    if |keys| == 0 then Walk(0, st)
    else
      var s := Eval(cells, keys[0], st);
      var w := EvalRange(cells, keys[1..], s.st);
      assert forall j :: j in keys ==> j == keys[0] || j in keys[1..];
      Walk(Coerce(s.value) + w.total, w.st)
  }

  /** The walk's total is what its keys contribute once the walk is over: a key read from the
      memo or evaluated afresh keeps that value, and a key met on the stack contributes 0 and
      is still unmemoised at the end. */
  lemma {:induction false} EvalRangeTotal(cells: Cells, keys: seq<string>, st: State)
    ensures EvalRange(cells, keys, st).total == Total(keys, EvalRange(cells, keys, st).st.memo)
    decreases |keys|
  {
    if |keys| > 0 {
      var s := Eval(cells, keys[0], st);
      var w := EvalRange(cells, keys[1..], s.st);
      EvalRangeTotal(cells, keys[1..], s.st);
      if keys[0] !in st.memo && keys[0] in st.processing {
        NoLeadingInt(RefError);
        assert keys[0] !in w.st.memo;
      }
      assert Coerce(s.value) == Contribution(w.st.memo, keys[0]);
    }
  }

  /** A SUM renders the total of its range as the memo stands afterwards, the summing key
      itself (met on the stack if it lies in its own range) counting 0. */
  lemma EvalSumValue(cells: Cells, key: string, range: seq<string>, inner: State)
    requires key in inner.processing && key !in inner.memo
    ensures var r := EvalSum(cells, key, range, inner);
            r.value == IntToString(Total(range, r.st.memo - {key}))
  {
    EvalRangeTotal(cells, range, inner);
    EvalSumMemo(cells, key, range, inner);
  }

  /** Leaving a SUM adds exactly its own entry to the memo the range walk left. */
  lemma EvalSumMemo(cells: Cells, key: string, range: seq<string>, inner: State)
    requires key in inner.processing && key !in inner.memo
    ensures var r := EvalSum(cells, key, range, inner);
            var w := EvalRange(cells, range, inner);
            r.value == IntToString(w.total) && r.st.memo - {key} == w.st.memo
  {
    var w := EvalRange(cells, range, inner);
    var v := IntToString(w.total);
    assert EvalSum(cells, key, range, inner) == Step(v, State(w.st.memo[key := v], w.st.processing - {key}));
    assert key !in w.st.memo;
    RemoveAdded(w.st.memo, key, v);
  }

  lemma RemoveAdded(m: map<string, string>, k: string, v: string)
    requires k !in m
    ensures m[k := v] - {k} == m
  {
  }

  /** A key neither memoised nor on the stack gets the value its text calls for: the text
      itself, `#NAME?`, or the rendered total of its range; and every key of the range is then
      memoised unless it was on the stack (a circular reference) or is the key itself. */
  lemma EvalValue(cells: Cells, key: string, st: State)
    requires key !in st.memo && key !in st.processing
    ensures var r := Eval(cells, key, st);
      match Classify(Raw(cells, key))
      case Literal => r.value == Raw(cells, key)
      case Unknown => r.value == NameError
      case Sum(m) =>
        && r.value == IntToString(Total(SumKeys(m), r.st.memo - {key}))
        && forall j :: j in SumKeys(m) ==> j in r.st.memo || j in st.processing || j == key
  {
    match Classify(Raw(cells, key))
    case Literal =>
    case Unknown =>
    case Sum(m) =>
      EvalSumValue(cells, key, SumKeys(m), State(st.memo, st.processing + {key}));
  }
}

=== FILE: formula.dfy ===
/** The one formula shape the spreadsheet recognises, `=SUM(<ref>:<ref>)` searched for anywhere
    in a cell's text and without regard to case, and the rectangle of cell keys it names. */
module Formula {
  import opened Options
  import opened Text

  /** A corner as the pattern captures it: a run of letters followed by a run of digits. */
  datatype CellRef = CellRef(letters: string, digits: string)

  /** The two captured corners of a SUM, in the order they were written. */
  datatype SumRange = SumRange(start: CellRef, end: CellRef)

  /** How a cell's raw content is read: passed through, an unrecognised formula, or a SUM. */
  datatype Content = Literal | Unknown | Sum(range: SumRange)

  predicate ValidRef(r: CellRef) {
    && |r.letters| > 0 && All(r.letters, Letters)
    && |r.digits| > 0 && All(r.digits, Digits)
  }

  predicate ValidRange(m: SumRange) {
    ValidRef(m.start) && ValidRef(m.end)
  }

  function RefText(r: CellRef): string {
    r.letters + r.digits
  }

  /** `SUM` in any mix of cases. */
  predicate SumWord(w: string) {
    && |w| == 3
    && (w[0] == 'S' || w[0] == 's')
    && (w[1] == 'U' || w[1] == 'u')
    && (w[2] == 'M' || w[2] == 'm')
  }

  /** The text `<ref>:<ref>)` that follows `=SUM(` in a match capturing the corners of `m`. */
  function CornersText(m: SumRange): string {
    RefText(m.start) + ([':'] + (RefText(m.end) + [')']))
  }

  /** `t` begins with a match of `=SUM\(([A-Z]+\d+):([A-Z]+\d+)\)` (flag `i`) whose two
      captures are the corners of `m`: `=`, `SUM` in any case, `(`, then the corners' text. */
  predicate SumAt(t: string, m: SumRange) {
    && |t| >= 5 && t[0] == '=' && SumWord(t[1..4]) && t[4] == '('
    && ValidRange(m)
    && CornersText(m) <= t[5..]
  }

  /** A corner read at the start of some text, and how many characters it took. */
  datatype Read = Read(ref: CellRef, len: nat)

  /** Reads one corner at the start of `t`: the longest letter run, then the longest digit run. */
  function ReadRef(t: string): (r: Option<Read>)
    ensures r.Some? ==> ValidRef(r.value.ref)
    ensures r.Some? ==> r.value.len <= |t| && t[..r.value.len] == RefText(r.value.ref)
  {
    var l := Span(t, Letters);
    var d := Span(t[l..], Digits);
    if l == 0 || d == 0 then None
    else
      var ref := CellRef(t[..l], t[l..l + d]);
      SpanFacts(t, Letters);
      SpanFacts(t[l..], Digits);
      assert t[l..l + d] == t[l..][..d];
      assert t[..l + d] == t[..l] + t[l..l + d];
      Some(Read(ref, l + d))
  }

  /** The text after a leading `c`, if `u` starts with `c`. */
  function Skip(u: string, c: char): Option<string> {
    if |u| > 0 && u[0] == c then Some(u[1..]) else None
  }

  /** Matches `<ref>:<ref>)` at the start of `u`. */
  function MatchCorners(u: string): (r: Option<SumRange>)
    ensures r.Some? ==> ValidRange(r.value)
  {
    var a := ReadRef(u);
    if a.None? then None
    else
      var colon := Skip(u[a.value.len..], ':');
      if colon.None? then None
      else
        var b := ReadRef(colon.value);
        if b.None? then None
        else if Skip(colon.value[b.value.len..], ')').None? then None
        else Some(SumRange(a.value.ref, b.value.ref))
  }

  /** Matches the pattern at the very start of `t`. */
  function MatchAt(t: string): (r: Option<SumRange>)
    ensures r.Some? ==> ValidRange(r.value)
  {
    if |t| < 5 || t[0] != '=' || !SumWord(t[1..4]) || t[4] != '(' then None
    else MatchCorners(t[5..])
  }

  /** The regular expression's leftmost match in `s`: the first position at which the
      pattern matches. */
  function FindSum(s: string): (r: Option<SumRange>)
    ensures r.Some? ==> ValidRange(r.value)
  {
    if |s| == 0 then None
    else
      match MatchAt(s)
      case Some(m) => Some(m)
      case None => FindSum(s[1..])
  }

  predicate IsFormula(raw: string) {
    |raw| > 0 && raw[0] == '='
  }

  /** Text not starting with `=` passes through; otherwise a SUM match anywhere in it makes it
      a sum, and its absence an unrecognised formula. */
  function Classify(raw: string): (c: Content)
    ensures c.Literal? <==> !IsFormula(raw)
    ensures c.Sum? ==> ValidRange(c.range)
  {
    if !IsFormula(raw) then Literal
    else
      match FindSum(raw)
      case None => Unknown
      case Some(m) => Sum(m)
  }

  /** Column index of a corner: the code of its first letter minus 65 (no upper-casing, so
      `a`..`z` give 32..57). */
  function ColumnIndex(r: CellRef): (c: int)
    requires ValidRef(r)
    ensures 0 <= c <= 57
  {
    (r.letters[0] as int) - 65
  }

  /** Row number of a corner: the value of its digit run, leading zeros allowed. The source reads
      it into a double; here it is an unbounded natural number. */
  function RowNumber(r: CellRef): nat
    requires ValidRef(r)
  {
    DigitsValue(r.digits)
  }

  predicate IsColumn(c: int) {
    0 <= c <= 57
  }

  /** The key of column `c`, row `row`: the character with code `65 + c` followed by the row. */
  function KeyOf(c: int, row: nat): string
    requires IsColumn(c)
  {
    [(65 + c) as char] + NatToString(row)
  }

  /** Keys of column `c` for rows `lo` to `hi` inclusive, top to bottom. */
  function ColumnKeys(c: int, lo: nat, hi: nat): (ks: seq<string>)
    requires IsColumn(c)
    ensures |ks| == if lo <= hi then hi - lo + 1 else 0
    ensures forall i :: 0 <= i < |ks| ==> ks[i] == KeyOf(c, lo + i)
    decreases hi - lo
  {
    if lo > hi then [] else [KeyOf(c, lo)] + ColumnKeys(c, lo + 1, hi)
  }

  /** The block `[cLo..cHi] x [rLo..rHi]` walked column by column, each column top to bottom. */
  function BlockKeys(cLo: int, cHi: int, rLo: nat, rHi: nat): (ks: seq<string>)
    requires 0 <= cLo && cHi <= 57
    decreases cHi - cLo
  {
    if cLo > cHi then [] else ColumnKeys(cLo, rLo, rHi) + BlockKeys(cLo + 1, cHi, rLo, rHi)
  }

  /** The normalised rectangle of a SUM: min and max of the corners per axis. */
  function ColLo(m: SumRange): int
    requires ValidRange(m)
  {
    Min(ColumnIndex(m.start), ColumnIndex(m.end))
  }

  function ColHi(m: SumRange): int
    requires ValidRange(m)
  {
    Max(ColumnIndex(m.start), ColumnIndex(m.end))
  }

  function RowLo(m: SumRange): nat
    requires ValidRange(m)
  {
    Min(RowNumber(m.start), RowNumber(m.end))
  }

  function RowHi(m: SumRange): nat
    requires ValidRange(m)
  {
    Max(RowNumber(m.start), RowNumber(m.end))
  }

  /** The keys a SUM visits: the block between the normalised corners. */
  function SumKeys(m: SumRange): seq<string>
    requires ValidRange(m)
  {
    BlockKeys(ColLo(m), ColHi(m), RowLo(m), RowHi(m))
  }

  /** A corner written out, followed by a character that is neither letter nor digit, reads back
      as itself. */
  lemma ReadRefOf(r: CellRef, rest: string)
    requires ValidRef(r)
    requires |rest| > 0 && !IsLetter(rest[0]) && !IsDigit(rest[0])
    ensures ReadRef(RefText(r) + rest) == Some(Read(r, |RefText(r)|))
  {
    var t := RefText(r) + rest;
    var l := |r.letters|;
    var d := |r.digits|;
    assert Span(t, Letters) == l by {
      assert t == r.letters + (r.digits + rest);
      SpanOfPrefix(r.letters, r.digits + rest, Letters);
    }
    assert t[l..] == r.digits + rest;
    assert Span(t[l..], Digits) == d by {
      SpanOfPrefix(r.digits, rest, Digits);
    }
    assert t[..l] == r.letters;
    assert t[l..l + d] == r.digits;
  }

  /** Regrouping of the pieces of a range's text. */
  lemma CornersTextThen(m: SumRange, rest: string)
    ensures CornersText(m) + rest == RefText(m.start) + ([':'] + (RefText(m.end) + ([')'] + rest)))
  {
  }

  /** A successful read splits the text into the corner and what follows it. */
  lemma ReadRefSplit(u: string)
    requires ReadRef(u).Some?
    ensures u == RefText(ReadRef(u).value.ref) + u[ReadRef(u).value.len..]
  {
    var a := ReadRef(u).value;
    assert u == u[..a.len] + u[a.len..];
  }

  lemma MatchCornersSound(u: string)
    requires MatchCorners(u).Some?
    ensures CornersText(MatchCorners(u).value) <= u
  {
    var a := ReadRef(u).value;
    var u1 := u[a.len..];
    var u2 := u1[1..];
    var b := ReadRef(u2).value;
    var u3 := u2[b.len..];
    var m := SumRange(a.ref, b.ref);
    assert u2 == RefText(b.ref) + ([')'] + u3[1..]) by {
      ReadRefSplit(u2);
      assert u3 == [')'] + u3[1..];
    }
    assert u1 == [':'] + u2;
    assert u == RefText(a.ref) + u1 by {
      ReadRefSplit(u);
    }
    CornersTextThen(m, u3[1..]);
  }

  /** After the first corner, `:<ref>)` is read as the second corner and the closing parenthesis. */
  lemma MatchCornersTail(e: CellRef, rest: string)
    requires ValidRef(e)
    ensures var v := [':'] + (RefText(e) + ([')'] + rest));
      && Skip(v, ':') == Some(RefText(e) + ([')'] + rest))
      && ReadRef(RefText(e) + ([')'] + rest)) == Some(Read(e, |RefText(e)|))
      && Skip((RefText(e) + ([')'] + rest))[|RefText(e)|..], ')') == Some(rest)
  {
    ReadRefOf(e, [')'] + rest);
    assert (RefText(e) + ([')'] + rest))[|RefText(e)|..] == [')'] + rest;
  }

  lemma MatchCornersComplete(m: SumRange, rest: string)
    requires ValidRange(m)
    ensures MatchCorners(CornersText(m) + rest) == Some(m)
  {
    var u := CornersText(m) + rest;
    var tail1 := [':'] + (RefText(m.end) + ([')'] + rest));
    assert u == RefText(m.start) + tail1 by {
      CornersTextThen(m, rest);
    }
    assert ReadRef(u) == Some(Read(m.start, |RefText(m.start)|)) by {
      ReadRefOf(m.start, tail1);
    }
    assert u[|RefText(m.start)|..] == tail1;
    MatchCornersTail(m.end, rest);
  }

  /** What the matcher returns is a match of the pattern at the start of `t`. */
  lemma MatchAtSound(t: string)
    requires MatchAt(t).Some?
    ensures SumAt(t, MatchAt(t).value)
  {
    MatchCornersSound(t[5..]);
  }

  /** Every match of the pattern at the start of `t` is found, with the same captures. */
  lemma MatchAtComplete(t: string, m: SumRange)
    requires SumAt(t, m)
    ensures MatchAt(t) == Some(m)
  {
    var u := t[5..];
    var rest := u[|CornersText(m)|..];
    assert u == CornersText(m) + rest;
    MatchCornersComplete(m, rest);
  }

  /** The matcher finds exactly the matches of the pattern at the start of `t`, so the captures
      of a match are unique. */
  lemma MatchAtIff(t: string, m: SumRange)
    ensures MatchAt(t) == Some(m) <==> SumAt(t, m)
  {
    if MatchAt(t) == Some(m) {
      MatchAtSound(t);
    }
    if SumAt(t, m) {
      MatchAtComplete(t, m);
    }
  }

  /** A formula that begins with a match of the pattern is that SUM. */
  lemma ClassifyLeadingSum(t: string, m: SumRange)
    requires SumAt(t, m)
    ensures Classify(t) == Sum(m)
  {
    MatchAtComplete(t, m);
  }

  /** `FindSum` is the leftmost match: None exactly when the pattern matches nowhere in `s`, and
      otherwise the captures of a match at a position before which there is none. */
  lemma {:induction false} FindSumLeftmost(s: string)
    ensures FindSum(s).None? <==> forall p, m :: 0 <= p < |s| ==> !SumAt(s[p..], m)
    ensures FindSum(s).Some? ==>
      exists p :: 0 <= p < |s| && SumAt(s[p..], FindSum(s).value)
                  && forall q, m :: 0 <= q < p ==> !SumAt(s[q..], m)
  {
    if |s| > 0 {
      assert s[0..] == s;
      match MatchAt(s)
      case Some(m) =>
        MatchAtIff(s, m);
      case None =>
        forall m ensures !SumAt(s, m) {
          MatchAtIff(s, m);
        }
        FindSumLeftmost(s[1..]);
        forall p | 1 <= p <= |s| ensures s[1..][p - 1..] == s[p..] { }
        if FindSum(s).Some? {
          var p :| 0 <= p < |s[1..]| && SumAt(s[1..][p..], FindSum(s).value)
                   && forall q, m :: 0 <= q < p ==> !SumAt(s[1..][q..], m);
          assert SumAt(s[p + 1..], FindSum(s).value);
          forall q, m | 0 <= q < p + 1 ensures !SumAt(s[q..], m) {
            if q > 0 {
              assert s[q..] == s[1..][q - 1..];
            }
          }
        }
    }
  }

  /** `k` strides of length `h`, written as a sum so that the walk lemmas need no multiplication;
      StrideIsProduct turns it back into `k * h`. */
  function Stride(k: nat, h: nat): nat {
    if k == 0 then 0 else h + Stride(k - 1, h)
  }

  lemma {:induction false} StrideIsProduct(k: nat, h: nat)
    ensures Stride(k, h) == k * h
  {
    if k > 0 {
      StrideIsProduct(k - 1, h);
    }
  }

  lemma {:induction false} BlockKeysLength(cLo: int, cHi: int, rLo: nat, rHi: nat)
    requires 0 <= cLo <= cHi + 1 && cHi <= 57 && rLo <= rHi
    ensures |BlockKeys(cLo, cHi, rLo, rHi)| == Stride(cHi - cLo + 1, rHi - rLo + 1)
    decreases cHi - cLo
  {
    if cLo <= cHi {
      BlockKeysLength(cLo + 1, cHi, rLo, rHi);
    }
  }

  /** Cell `(c, r)` of the block sits at position `Stride(c - cLo, H) + (r - rLo)`. */
  lemma {:induction false} BlockKeysAt(cLo: int, cHi: int, rLo: nat, rHi: nat, c: int, r: nat)
    requires 0 <= cLo <= c <= cHi <= 57 && rLo <= r <= rHi
    ensures Stride(c - cLo, rHi - rLo + 1) + (r - rLo) < |BlockKeys(cLo, cHi, rLo, rHi)|
    ensures BlockKeys(cLo, cHi, rLo, rHi)[Stride(c - cLo, rHi - rLo + 1) + (r - rLo)] == KeyOf(c, r)
    decreases cHi - cLo
  {
    var h := rHi - rLo + 1;
    var col := ColumnKeys(cLo, rLo, rHi);
    var rest := BlockKeys(cLo + 1, cHi, rLo, rHi);
    assert BlockKeys(cLo, cHi, rLo, rHi) == col + rest;
    if c == cLo {
      assert col[r - rLo] == KeyOf(c, r);
    } else {
      BlockKeysAt(cLo + 1, cHi, rLo, rHi, c, r);
      assert Stride(c - cLo, h) == h + Stride(c - (cLo + 1), h);
    }
  }

  /** A SUM visits one key per cell of its normalised rectangle, column by column: cell
      `(c, r)` comes after every cell of the earlier columns and the earlier rows of column `c`. */
  lemma SumKeysRectangle(m: SumRange, c: int, r: nat)
    requires ValidRange(m) && ColLo(m) <= c <= ColHi(m) && RowLo(m) <= r <= RowHi(m)
    ensures |SumKeys(m)| == Stride(ColHi(m) - ColLo(m) + 1, RowHi(m) - RowLo(m) + 1)
    ensures var i := Stride(c - ColLo(m), RowHi(m) - RowLo(m) + 1) + (r - RowLo(m));
      i < |SumKeys(m)| && SumKeys(m)[i] == KeyOf(c, r)
  {
    BlockKeysLength(ColLo(m), ColHi(m), RowLo(m), RowHi(m));
    BlockKeysAt(ColLo(m), ColHi(m), RowLo(m), RowHi(m), c, r);
  }

  /** The same walk with the strides multiplied out: `width * height` keys, with cell `(c, r)`
      at position `pos`, its column offset times `height` plus its row offset. */
  lemma SumKeysGrid(m: SumRange, c: int, r: nat, width: nat, height: nat, pos: nat)
    requires ValidRange(m) && ColLo(m) <= c <= ColHi(m) && RowLo(m) <= r <= RowHi(m)
    requires width == ColHi(m) - ColLo(m) + 1 && height == RowHi(m) - RowLo(m) + 1
    requires pos == (c - ColLo(m)) * height + (r - RowLo(m))
    ensures |SumKeys(m)| == width * height
    ensures pos < |SumKeys(m)| && SumKeys(m)[pos] == KeyOf(c, r)
  {
    SumKeysRectangle(m, c, r);
    StrideIsProduct(width, height);
    StrideIsProduct(c - ColLo(m), height);
  }

  /** Every key a block visits is the key of one of its cells. */
  lemma {:induction false} BlockKeysWithin(cLo: int, cHi: int, rLo: nat, rHi: nat, k: string)
    requires 0 <= cLo && cHi <= 57
    requires k in BlockKeys(cLo, cHi, rLo, rHi)
    ensures exists c, r :: cLo <= c <= cHi && rLo <= r <= rHi && k == KeyOf(c, r)
    decreases cHi - cLo
  {
    var col := ColumnKeys(cLo, rLo, rHi);
    var rest := BlockKeys(cLo + 1, cHi, rLo, rHi);
    if k in col {
      var i :| 0 <= i < |col| && col[i] == k;
      assert k == KeyOf(cLo, rLo + i);
    } else {
      BlockKeysWithin(cLo + 1, cHi, rLo, rHi, k);
    }
  }

  /** A SUM visits nothing outside its normalised rectangle. */
  lemma SumKeysWithin(m: SumRange, k: string)
    requires ValidRange(m) && k in SumKeys(m)
    ensures exists c, r :: ColLo(m) <= c <= ColHi(m) && RowLo(m) <= r <= RowHi(m) && k == KeyOf(c, r)
  {
    BlockKeysWithin(ColLo(m), ColHi(m), RowLo(m), RowHi(m), k);
  }

  /** The order in which the two corners are written does not matter. */
  lemma SumKeysSymmetric(m: SumRange)
    requires ValidRange(m)
    ensures SumKeys(SumRange(m.end, m.start)) == SumKeys(m)
  {
    var n := SumRange(m.end, m.start);
    assert ColLo(n) == ColLo(m) && ColHi(n) == ColHi(m);
    assert RowLo(n) == RowLo(m) && RowHi(n) == RowHi(m);
  }
}

=== FILE: formula_bar.dfy ===
/** The formula bar above the grid: it shows the raw text of the selected cell and writes what
    is typed back into that cell. */
module FormulaBar {
  import opened Options
  import opened Text
  import opened Evaluator

  /** The bar's text: the selected cell's raw text, or empty when nothing is selected (the key
      then read is the empty key, which no edit ever writes). */
  function FormulaInput(cells: Cells, editing: Option<string>): string {
    Raw(cells, editing.GetOr(""))
  }

  /** Typing into the bar stores the new text under the selected key, when a key is selected. */
  function Edit(cells: Cells, editing: Option<string>, text: string): (r: Cells)
    ensures Truthy(editing) ==> r.Keys == cells.Keys + {editing.value}
    ensures !Truthy(editing) ==> r == cells
    ensures "" !in cells ==> "" !in r
  {
    if Truthy(editing) then cells[editing.value := text] else cells
  }

  /** After an edit the bar reads back exactly what was typed, and every other cell keeps its
      raw text. */
  lemma EditReadsBack(cells: Cells, editing: Option<string>, text: string)
    requires Truthy(editing)
    ensures FormulaInput(Edit(cells, editing, text), editing) == text
    ensures forall k :: k != editing.value ==> Raw(Edit(cells, editing, text), k) == Raw(cells, k)
  {
  }

  /** With no cell selected the bar is empty and typing changes nothing (no edit ever stores
      text under the empty key, see `Edit`). */
  lemma NoSelection(cells: Cells, editing: Option<string>, text: string)
    requires !Truthy(editing) && "" !in cells
    ensures FormulaInput(cells, editing) == ""
    ensures Edit(cells, editing, text) == cells
  {
  }
}

=== FILE: jira_board.dfy ===
/** The task board: tasks laid out in one column per status, moved between columns by drag and
    drop, deleted, and added with an id one above the highest `ZEN-<n>` number in use. */
module JiraBoard {
  import opened Options
  import opened Text
  import opened Lists

  /** The statuses, in the order the board lays out its columns. */
  datatype Status = ToDo | InProgress | Done

  const Columns: seq<Status> := [ToDo, InProgress, Done]

  datatype Task = Task(id: string, title: string, description: string, status: Status)

  /** The board: its tasks, the add-task form's title and description drafts, and whether the
      form is open. */
  datatype Board = Board(tasks: seq<Task>, draftTitle: string, draftDescription: string, formOpen: bool)

  /** A task as it is after a drop onto `status` of the task dragged with id `id`. */
  function Moved(t: Task, id: string, status: Status): Task {
    if t.id == id then t.(status := status) else t
  }

  /** Dropping the task dragged with id `id` onto the column `status`: every task with that id
      takes the new status, every other task and every other field stays as it was. */
  function Drop(tasks: seq<Task>, id: string, status: Status): (r: seq<Task>)
    ensures |r| == |tasks|
    ensures forall i :: 0 <= i < |tasks| ==>
      && r[i].id == tasks[i].id && r[i].title == tasks[i].title
      && r[i].description == tasks[i].description
      && r[i].status == (if tasks[i].id == id then status else tasks[i].status)
  {
    if |tasks| == 0 then [] else [Moved(tasks[0], id, status)] + Drop(tasks[1..], id, status)
  }

  /** Deleting: the tasks without id `id`, in their original order. */
  function Delete(tasks: seq<Task>, id: string): (r: seq<Task>)
    ensures forall t :: t in r <==> t in tasks && t.id != id
  {
    Filter(tasks, (t: Task) => t.id != id)
  }

  /** The tasks shown in the column for `status`, in board order. */
  function Column(tasks: seq<Task>, status: Status): (r: seq<Task>)
    ensures forall t :: t in r <==> t in tasks && t.status == status
  {
    Filter(tasks, (t: Task) => t.status == status)
  }

  /** All columns, left to right: one per status in enum order, each holding exactly the tasks
      of its status, and together holding every task of the board exactly as often as it
      occurs there. */
  function Layout(tasks: seq<Task>): (cols: seq<seq<Task>>)
    ensures |cols| == |Columns|
    ensures forall i, t :: 0 <= i < |Columns| ==> (t in cols[i] <==> t in tasks && t.status == Columns[i])
    ensures multiset(tasks) == multiset(cols[0]) + multiset(cols[1]) + multiset(cols[2])
  {
    ColumnsPartition(tasks);
    seq(|Columns|, i requires 0 <= i < |Columns| => Column(tasks, Columns[i]))
  }

  /** No two tasks share an id. */
  predicate UniqueIds(tasks: seq<Task>) {
    forall i, j :: 0 <= i < j < |tasks| ==> tasks[i].id != tasks[j].id
  }

  // ---------------------------------------------------------------------------------------------
  // Splitting an id at `-`, as `String.prototype.split` does with a one-character separator.

  /** The pieces of `s` between occurrences of `sep`; always at least one, possibly empty. */
  function Split(s: string, sep: char): (parts: seq<string>)
    ensures |parts| >= 1
    ensures forall i :: 0 <= i < |parts| ==> sep !in parts[i]
  {
    if |s| == 0 then [""]
    else
      var rest := Split(s[1..], sep);
      if s[0] == sep then [""] + rest else [[s[0]] + rest[0]] + rest[1..]
  }

  /** The pieces put back together with `sep` between them. */
  function Join(parts: seq<string>, sep: char): string
    requires |parts| >= 1
  {
    if |parts| == 1 then parts[0] else parts[0] + [sep] + Join(parts[1..], sep)
  }

  lemma JoinHead(c: char, parts: seq<string>, sep: char)
    requires |parts| >= 1
    ensures Join([[c] + parts[0]] + parts[1..], sep) == [c] + Join(parts, sep)
  {
    var q := [[c] + parts[0]] + parts[1..];
    assert q[1..] == parts[1..];
  }

  /** Joining the pieces of a split gives back the text. */
  lemma {:induction false} SplitJoin(s: string, sep: char)
    ensures Join(Split(s, sep), sep) == s
    decreases |s|
  {
    if |s| > 0 {
      var rest := Split(s[1..], sep);
      SplitJoin(s[1..], sep);
      if s[0] == sep {
        assert ([""] + rest)[1..] == rest;
      } else {
        JoinHead(s[0], rest, sep);
      }
    }
  }

  /** Splitting text that starts with a piece free of `sep`: that piece heads the first part. */
  lemma {:induction false} SplitPrefix(x: string, y: string, sep: char)
    requires sep !in x
    ensures var p := Split(y, sep); Split(x + y, sep) == [x + p[0]] + p[1..]
    decreases |x|
  {
    if |x| > 0 {
      assert (x + y)[0] == x[0] && (x + y)[1..] == x[1..] + y;
      SplitPrefix(x[1..], y, sep);
      var p := Split(y, sep);
      assert [x[0]] + (x[1..] + p[0]) == x + p[0];
    } else {
      var p := Split(y, sep);
      assert x + y == y && x + p[0] == p[0];
      assert [p[0]] + p[1..] == p;
    }
  }

  /** Splitting joined pieces free of `sep` gives back the pieces. */
  lemma {:induction false} JoinSplit(parts: seq<string>, sep: char)
    requires |parts| >= 1
    requires forall i :: 0 <= i < |parts| ==> sep !in parts[i]
    ensures Split(Join(parts, sep), sep) == parts
    decreases |parts|
  {
    if |parts| == 1 {
      SplitPrefix(parts[0], "", sep);
      assert parts[0] + "" == parts[0];
    } else {
      var tail := Join(parts[1..], sep);
      JoinSplit(parts[1..], sep);
      assert Split([sep] + tail, sep) == [""] + parts[1..];
      SplitPrefix(parts[0], [sep] + tail, sep);
      assert parts[0] + [sep] + tail == parts[0] + ([sep] + tail);
      var p := [""] + parts[1..];
      assert p[0] == "" && p[1..] == parts[1..];
      assert parts[0] + "" == parts[0];
      assert [parts[0]] + parts[1..] == parts;
    }
  }

  // ---------------------------------------------------------------------------------------------
  // Id allocation.

  /** The text `parseInt` reads from an id: the piece after the first `-`, or `0` when there is
      none or it is empty (`split('-')[1] || '0'`). */
  function IdSegment(id: string): (seg: string)
    ensures '-' !in seg
  {
    var parts := Split(id, '-');
    if |parts| >= 2 && parts[1] != "" then parts[1] else "0"
  }

  /** The number of an id, as `parseInt(segment, 10)` reads it; None for `NaN`. */
  function IdNumber(id: string): Option<int> {
    LeadingInt(IdSegment(id))
  }

  /** The numbers that parse, in task order (`map(...).filter(n => !isNaN(n))`). */
  function Numbers(tasks: seq<Task>): (ns: seq<int>)
    ensures forall t :: t in tasks && IdNumber(t.id).Some? ==> IdNumber(t.id).value in ns
    ensures forall n :: n in ns ==> exists t :: t in tasks && IdNumber(t.id) == Some(n)
  {
    if |tasks| == 0 then []
    else
      var head := match IdNumber(tasks[0].id) case Some(n) => [n] case None => [];
      var rest := Numbers(tasks[1..]);
      assert forall t :: t in tasks ==> t == tasks[0] || t in tasks[1..];
      head + rest
  }

  /** `Math.max` of a non-empty list: an element that no element exceeds. */
  function MaxOf(ns: seq<int>): (m: int)
    requires |ns| > 0
    ensures m in ns
    ensures forall x :: x in ns ==> x <= m
  {
    if |ns| == 1 then ns[0]
    else
      var m := MaxOf(ns[1..]);
      assert forall x :: x in ns ==> x == ns[0] || x in ns[1..];
      if ns[0] >= m then ns[0] else m
  }

  /** The highest number among the ids, or 0 when none parses. */
  function Highest(tasks: seq<Task>): (m: int)
    ensures forall t :: t in tasks && IdNumber(t.id).Some? ==> IdNumber(t.id).value <= m
    ensures m == 0 || exists t :: t in tasks && IdNumber(t.id) == Some(m)
  {
    var ns := Numbers(tasks);
    if |ns| > 0 then MaxOf(ns) else 0
  }

  const Prefix := "ZEN"

  /** The id a new task gets: `ZEN-` and the highest number plus one. */
  function NextId(tasks: seq<Task>): string {
    Prefix + ['-'] + IntToString(Highest(tasks) + 1)
  }

  /** An id's number is never negative: its segment holds no minus sign. */
  lemma IdNumberNonNegative(id: string)
    ensures IdNumber(id).Some? ==> IdNumber(id).value >= 0
  {
    LeadingIntWithoutMinus(IdSegment(id));
  }

  /** The highest number is 0 or more. */
  lemma HighestNonNegative(tasks: seq<Task>)
    ensures Highest(tasks) >= 0
  {
    var m := Highest(tasks);
    if m != 0 {
      var t :| t in tasks && IdNumber(t.id) == Some(m);
      IdNumberNonNegative(t.id);
    }
  }

  /** `ZEN-<n>` reads back as `n`. */
  lemma NumberedId(n: int)
    requires n >= 0
    ensures IdNumber(Prefix + ['-'] + IntToString(n)) == Some(n)
  {
    var d := IntToString(n);
    NatToStringDigits(n);
    assert '-' !in d by {
      forall i | 0 <= i < |d| ensures d[i] != '-' {
        assert IsDigit(d[i]);
      }
    }
    assert Join([Prefix, d], '-') == Prefix + ['-'] + Join([d], '-');
    JoinSplit([Prefix, d], '-');
    assert IdSegment(Prefix + ['-'] + d) == d;
    LeadingIntOfIntToString(n, "");
    assert d + "" == d;
  }

  /** The new id reads back as the highest number plus one. */
  lemma NextIdNumber(tasks: seq<Task>)
    ensures IdNumber(NextId(tasks)) == Some(Highest(tasks) + 1)
  {
    HighestNonNegative(tasks);
    NumberedId(Highest(tasks) + 1);
  }

  /** The new id differs from every id on the board: any id equal to it would read as a number
      above the highest. */
  lemma NextIdFresh(tasks: seq<Task>)
    ensures forall t :: t in tasks ==> t.id != NextId(tasks)
  {
    NextIdNumber(tasks);
  }

  // ---------------------------------------------------------------------------------------------
  // Adding a task.

  /** The form's Add: a title that trims to nothing leaves the board as it is; otherwise a
      `ToDo` task with the drafts and a new id is appended, the drafts are cleared and the form
      closes. */
  function AddTask(b: Board): (r: Board)
    ensures All(b.draftTitle, Spaces) ==> r == b
    ensures !All(b.draftTitle, Spaces) ==>
      && |r.tasks| == |b.tasks| + 1 && r.tasks[..|b.tasks|] == b.tasks
      && r.tasks[|b.tasks|] == Task(NextId(b.tasks), b.draftTitle, b.draftDescription, ToDo)
      && r.draftTitle == "" && r.draftDescription == "" && !r.formOpen
  {
    if All(b.draftTitle, Spaces) then b
    else
      var t := Task(NextId(b.tasks), b.draftTitle, b.draftDescription, ToDo);
      assert (b.tasks + [t])[..|b.tasks|] == b.tasks;
      Board(b.tasks + [t], "", "", false)
  }

  // ---------------------------------------------------------------------------------------------
  // What the handlers keep.

  /** Adding keeps the ids distinct. */
  lemma AddTaskUnique(b: Board)
    requires UniqueIds(b.tasks)
    ensures UniqueIds(AddTask(b).tasks)
  {
    NextIdFresh(b.tasks);
    var r := AddTask(b);
    if !All(b.draftTitle, Spaces) {
      forall i, j | 0 <= i < j < |r.tasks| ensures r.tasks[i].id != r.tasks[j].id {
        if j == |b.tasks| {
          assert r.tasks[i] == b.tasks[i];
          assert b.tasks[i] in b.tasks;
        } else {
          assert r.tasks[i] == b.tasks[i] && r.tasks[j] == b.tasks[j];
        }
      }
    }
  }

  /** Dropping keeps the ids, so it keeps them distinct. */
  lemma DropUnique(tasks: seq<Task>, id: string, status: Status)
    requires UniqueIds(tasks)
    ensures UniqueIds(Drop(tasks, id, status))
  {
  }

  /** Deleting keeps the ids distinct. */
  lemma {:induction false} DeleteUnique(tasks: seq<Task>, id: string)
    requires UniqueIds(tasks)
    ensures UniqueIds(Delete(tasks, id))
    decreases |tasks|
  {
    if |tasks| > 0 {
      var keep := (t: Task) => t.id != id;
      DeleteUnique(tasks[1..], id);
      var rest := Delete(tasks[1..], id);
      assert Delete(tasks, id) == (if keep(tasks[0]) then [tasks[0]] else []) + rest;
      forall t | t in rest ensures t.id != tasks[0].id {
        assert t in tasks[1..];
      }
    }
  }

  /** Dropping twice onto the same column is dropping once. */
  lemma DropIdempotent(tasks: seq<Task>, id: string, status: Status)
    ensures Drop(Drop(tasks, id, status), id, status) == Drop(tasks, id, status)
  {
  }

  /** Deleting again deletes nothing more. */
  lemma DeleteIdempotent(tasks: seq<Task>, id: string)
    ensures Delete(Delete(tasks, id), id) == Delete(tasks, id)
  {
    FilterAll(Delete(tasks, id), (t: Task) => t.id != id);
  }

  /** Deleting an id no task has changes nothing. */
  lemma DeleteAbsent(tasks: seq<Task>, id: string)
    requires forall t :: t in tasks ==> t.id != id
    ensures Delete(tasks, id) == tasks
  {
    FilterAll(tasks, (t: Task) => t.id != id);
  }

  /** Deleting keeps the order of what remains: it distributes over concatenation. */
  lemma DeleteConcat(a: seq<Task>, b: seq<Task>, id: string)
    ensures Delete(a + b, id) == Delete(a, id) + Delete(b, id)
  {
    FilterConcat(a, b, (t: Task) => t.id != id);
  }

  /** A column of a board with a task in front: that task, if it has the column's status, in
      front of the rest's column. */
  lemma ColumnCons(t: Task, rest: seq<Task>, status: Status)
    ensures Column([t] + rest, status) == (if t.status == status then [t] else []) + Column(rest, status)
  {
    assert ([t] + rest)[0] == t && ([t] + rest)[1..] == rest;
  }

  /** The columns split the board: every task is in the column of its status and in no other,
      as often as it is on the board. */
  lemma {:induction false} ColumnsPartition(tasks: seq<Task>)
    ensures multiset(tasks)
         == multiset(Column(tasks, ToDo)) + multiset(Column(tasks, InProgress)) + multiset(Column(tasks, Done))
    decreases |tasks|
  {
    if |tasks| > 0 {
      var t := tasks[0];
      var rest := tasks[1..];
      ColumnsPartition(rest);
      assert tasks == [t] + rest;
      ColumnCons(t, rest, ToDo);
      ColumnCons(t, rest, InProgress);
      ColumnCons(t, rest, Done);
      assert multiset(tasks) == multiset{t} + multiset(rest);
    }
  }

  /** A drop takes the dragged task out of every other column and leaves the rest of them as
      they were. */
  lemma {:induction false} DropOtherColumn(tasks: seq<Task>, id: string, status: Status, other: Status)
    requires other != status
    ensures Column(Drop(tasks, id, status), other) == Delete(Column(tasks, other), id)
    decreases |tasks|
  {
    if |tasks| > 0 {
      DropOtherColumn(tasks[1..], id, status, other);
      var d := Drop(tasks, id, status);
      assert d[1..] == Drop(tasks[1..], id, status);
      var c := Column(tasks, other);
      var rest := Column(tasks[1..], other);
      assert c == (if tasks[0].status == other then [tasks[0]] else []) + rest;
      DeleteConcat(if tasks[0].status == other then [tasks[0]] else [], rest, id);
    }
  }

  /** The column a drop lands in holds the tasks it held that were not dragged, and the dragged
      tasks with their new status. */
  lemma DropTargetColumn(tasks: seq<Task>, id: string, status: Status)
    ensures forall t :: t in Column(Drop(tasks, id, status), status) <==>
      || (t in Column(tasks, status) && t.id != id)
      || (exists u :: u in tasks && u.id == id && t == u.(status := status))
  {
    var d := Drop(tasks, id, status);
    forall t | t in Column(d, status)
      ensures (t in Column(tasks, status) && t.id != id) || (exists u :: u in tasks && u.id == id && t == u.(status := status))
    {
      var i :| 0 <= i < |d| && d[i] == t;
      if tasks[i].id == id {
        assert t == tasks[i].(status := status);
      } else {
        assert t == tasks[i];
      }
    }
    forall t | (t in Column(tasks, status) && t.id != id) || (exists u :: u in tasks && u.id == id && t == u.(status := status))
      ensures t in Column(d, status)
    {
      if t in Column(tasks, status) && t.id != id {
        var i :| 0 <= i < |tasks| && tasks[i] == t;
        assert d[i] == t;
      } else {
        var u :| u in tasks && u.id == id && t == u.(status := status);
        var i :| 0 <= i < |tasks| && tasks[i] == u;
        assert d[i] == t;
      }
    }
  }

  /** The tasks the board starts with. */
  function InitialTasks(): seq<Task> {
    [Task("ZEN-1", "Design Landing Page", "Create mockups in Figma", ToDo),
     Task("ZEN-2", "Develop API Endpoints", "User authentication and data fetching", InProgress),
     Task("ZEN-3", "Setup CI/CD Pipeline", "Integrate with GitHub Actions", Done),
     Task("ZEN-4", "Write User Documentation", "Cover all features and use cases", ToDo)]
  }

  lemma NumberedIdText(n: nat, text: string)
    requires 1 <= n <= 9 && text == Prefix + ['-', DigitChar(n)]
    ensures IdNumber(text) == Some(n)
  {
    NumberedId(n);
    assert IntToString(n) == [DigitChar(n)];
    assert Prefix + ['-'] + [DigitChar(n)] == text;
  }

  /** The highest number is the one some id carries and no id exceeds. */
  lemma HighestIs(tasks: seq<Task>, m: int)
    requires forall t :: t in tasks && IdNumber(t.id).Some? ==> IdNumber(t.id).value <= m
    requires exists t :: t in tasks && IdNumber(t.id) == Some(m)
    ensures Highest(tasks) == m
  {
    var w :| w in tasks && IdNumber(w.id) == Some(m);
    IdNumberNonNegative(w.id);
  }

  /** The starting ids read as 1 to 4. */
  lemma InitialIds()
    ensures IdNumber("ZEN-1") == Some(1) && IdNumber("ZEN-2") == Some(2)
    ensures IdNumber("ZEN-3") == Some(3) && IdNumber("ZEN-4") == Some(4)
  {
    LowIds();
    HighIds();
  }

  lemma LowIds()
    ensures IdNumber("ZEN-1") == Some(1) && IdNumber("ZEN-2") == Some(2)
  {
    NumberedIdText(1, "ZEN-1");
    NumberedIdText(2, "ZEN-2");
  }

  lemma HighIds()
    ensures IdNumber("ZEN-3") == Some(3) && IdNumber("ZEN-4") == Some(4)
  {
    NumberedIdText(3, "ZEN-3");
    NumberedIdText(4, "ZEN-4");
  }

  lemma InitialNumbers()
    ensures forall t :: t in InitialTasks() && IdNumber(t.id).Some? ==> IdNumber(t.id).value <= 4
    ensures InitialTasks()[3] in InitialTasks() && IdNumber(InitialTasks()[3].id) == Some(4)
  {
    var ts := InitialTasks();
    InitialIds();
    forall t | t in ts && IdNumber(t.id).Some? ensures IdNumber(t.id).value <= 4 {
      assert t.id == "ZEN-1" || t.id == "ZEN-2" || t.id == "ZEN-3" || t.id == "ZEN-4";
    }
  }

  /** The first task added to the starting board gets `ZEN-5`. */
  lemma InitialNextId()
    ensures NextId(InitialTasks()) == "ZEN-5"
  {
    InitialNumbers();
    HighestIs(InitialTasks(), 4);
    ZenFive(InitialTasks());
  }

  lemma ZenFive(tasks: seq<Task>)
    requires Highest(tasks) == 4
    ensures NextId(tasks) == "ZEN-5"
  {
    assert IntToString(5) == "5";
    assert Prefix + ['-'] + "5" == "ZEN-5";
  }
}

=== FILE: lists.dfy ===
/** Order-preserving filtering of sequences, shared by the task board and the slide deck. */
module Lists {
  /** The elements of `s` that `keep` accepts, in their order in `s`. */
  function Filter<T(!new)>(s: seq<T>, keep: T -> bool): (r: seq<T>)
    ensures |r| <= |s|
    ensures forall x :: x in r <==> x in s && keep(x)
  {
    if |s| == 0 then []
    else (if keep(s[0]) then [s[0]] else []) + Filter(s[1..], keep)
  }

  /** Filtering a concatenation filters each part: the kept elements keep their order. */
  lemma {:induction false} FilterConcat<T(!new)>(a: seq<T>, b: seq<T>, keep: T -> bool)
    ensures Filter(a + b, keep) == Filter(a, keep) + Filter(b, keep)
    decreases |a|
  {
    if |a| > 0 {
      assert (a + b)[1..] == a[1..] + b;
      FilterConcat(a[1..], b, keep);
    } else {
      assert a + b == b;
    }
  }

  /** A filter that every element passes returns the sequence. */
  lemma {:induction false} FilterAll<T(!new)>(s: seq<T>, keep: T -> bool)
    requires forall x :: x in s ==> keep(x)
    ensures Filter(s, keep) == s
    decreases |s|
  {
    if |s| > 0 {
      FilterAll(s[1..], keep);
    }
  }

  /** Two kept elements stay in the same order after filtering. */
  lemma {:induction false} FilterKeepsOrder<T(!new)>(s: seq<T>, keep: T -> bool, i: int, j: int)
    requires 0 <= i < j < |s| && keep(s[i]) && keep(s[j])
    ensures exists p, q :: 0 <= p < q < |Filter(s, keep)| && Filter(s, keep)[p] == s[i] && Filter(s, keep)[q] == s[j]
    decreases |s|
  {
    var r := Filter(s, keep);
    var rest := Filter(s[1..], keep);
    var h := if keep(s[0]) then [s[0]] else [];
    assert r == h + rest;
    if i == 0 {
      assert s[1..][j - 1] == s[j];
      assert s[j] in rest;
      var q :| 0 <= q < |rest| && rest[q] == s[j];
      assert r[0] == s[0] && r[1 + q] == s[j];
    } else {
      FilterKeepsOrder(s[1..], keep, i - 1, j - 1);
      var p, q :| 0 <= p < q < |rest| && rest[p] == s[i] && rest[q] == s[j];
      assert r[|h| + p] == s[i] && r[|h| + q] == s[j];
    }
  }
}

=== FILE: options.dfy ===
/** The optional value used wherever the source returns `undefined`, `null` or `NaN`. */
module Options {

  datatype Option<+T> = None | Some(value: T) {

    /** The wrapped value, or `default` when there is none (JavaScript's `x || default`
        for values whose only falsy form is the missing one). */
    function GetOr(default: T): T {
      match this
      case Some(v) => v
      case None => default
    }
  }
}

=== FILE: presentation.dfy ===
/** The slide deck: an editor over a list of slides with one active slide, and a full-screen
    presentation stepped through with the keyboard. */
module Presentation {
  import opened Options
  import opened Text
  import opened Lists

  datatype Slide = Slide(id: string, title: string, content: string)

  /** The field of the active slide the editor writes. */
  datatype Field = Title | Content

  /** The deck: its slides, the active slide's id (`null` as None), whether it is being
      presented, and the index of the slide on screen while it is. */
  datatype Deck = Deck(slides: seq<Slide>, active: Option<string>, presenting: bool, index: int)

  const NewSlideTitle := "New Slide"

  /** The slides the deck starts with, and the first of them active. */
  function InitialSlides(): seq<Slide> {
    [Slide("1", "Zenith Suite", "The All-in-One Productivity App"),
     Slide("2", "Features", "- Jira Board\n- To-Do List\n- Notes\n- Expenses"),
     Slide("3", "Thank You", "Q&A Session")]
  }

  function Initial(): Deck {
    Deck(InitialSlides(), Some(InitialSlides()[0].id), false, 0)
  }

  predicate HasSlide(slides: seq<Slide>, id: string) {
    exists i :: 0 <= i < |slides| && slides[i].id == id
  }

  /** `findIndex` on the ids: the first position holding `id`, or -1 when there is none. */
  function FindIndex(slides: seq<Slide>, id: string): (i: int)
    ensures -1 <= i < |slides|
    ensures 0 <= i ==> slides[i].id == id && forall j :: 0 <= j < i ==> slides[j].id != id
    ensures i == -1 <==> !HasSlide(slides, id)
  {
    if |slides| == 0 then -1
    else if slides[0].id == id then 0
    else
      var k := FindIndex(slides[1..], id);
      assert forall j :: 0 < j < |slides| ==> slides[j] == slides[1..][j - 1];
      if k == -1 then -1 else k + 1
  }

  /** `find` on the ids: the slide the editor shows, the first with the active id. */
  function ActiveSlide(d: Deck): (r: Option<Slide>)
    ensures r.Some? <==> d.active.Some? && HasSlide(d.slides, d.active.value)
    ensures r.Some? ==> r.value == d.slides[FindIndex(d.slides, d.active.value)]
  {
    if d.active.None? then None
    else
      var i := FindIndex(d.slides, d.active.value);
      if i == -1 then None else Some(d.slides[i])
  }

  // ---------------------------------------------------------------------------------------------
  // The editor's handlers.

  /** Adding: a slide titled `New Slide` with no content and the id `newId` (the clock's
      reading, a parameter here) goes at the end and becomes the active slide. */
  function AddSlide(d: Deck, newId: string): (r: Deck)
    ensures |r.slides| == |d.slides| + 1 && r.slides[..|d.slides|] == d.slides
    ensures r.slides[|d.slides|] == Slide(newId, NewSlideTitle, "")
    ensures r.active == Some(newId)
    ensures r.presenting == d.presenting && r.index == d.index
  {
    var s := Slide(newId, NewSlideTitle, "");
    assert (d.slides + [s])[..|d.slides|] == d.slides;
    d.(slides := d.slides + [s], active := Some(newId))
  }

  /** Clicking a slide in the sorter makes it active. */
  function Select(d: Deck, id: string): (r: Deck)
    ensures r.slides == d.slides && r.active == Some(id)
  {
    d.(active := Some(id))
  }

  /** Deleting: every slide with id `id` goes, the rest keep their order; if the active slide
      was that one, the first remaining slide becomes active, or none if none remain. */
  function DeleteSlide(d: Deck, id: string): (r: Deck)
    ensures forall s :: s in r.slides <==> s in d.slides && s.id != id
    ensures d.active == Some(id) ==> r.active == (if |r.slides| > 0 then Some(r.slides[0].id) else None)
    ensures d.active != Some(id) ==> r.active == d.active
    ensures r.presenting == d.presenting && r.index == d.index
  {
    var rest := Filter(d.slides, (s: Slide) => s.id != id);
    var active := if d.active == Some(id) then (if |rest| > 0 then Some(rest[0].id) else None) else d.active;
    d.(slides := rest, active := active)
  }

  /** Editing a field writes `value` into that field of every slide with the active id and
      leaves the other field alone; with no active slide (`null` or empty id) nothing changes. */
  function UpdateSlide(d: Deck, field: Field, value: string): (r: Deck)
    ensures !Truthy(d.active) ==> r == d
    ensures r.active == d.active && r.presenting == d.presenting && r.index == d.index
    ensures |r.slides| == |d.slides|
    ensures forall i :: 0 <= i < |d.slides| ==>
      if Truthy(d.active) && d.slides[i].id == d.active.value then
        && r.slides[i].id == d.slides[i].id
        && r.slides[i].title == (if field == Title then value else d.slides[i].title)
        && r.slides[i].content == (if field == Content then value else d.slides[i].content)
      else r.slides[i] == d.slides[i]
  {
    if !Truthy(d.active) then d
    else d.(slides := Rewrite(d.slides, d.active.value, field, value))
  }

  /** The slides with `field` of each slide with id `id` set to `value`. */
  function Rewrite(slides: seq<Slide>, id: string, field: Field, value: string): (r: seq<Slide>)
    ensures |r| == |slides|
    ensures forall i :: 0 <= i < |slides| ==> r[i] == Written(slides[i], id, field, value)
  {
    if |slides| == 0 then []
    else [Written(slides[0], id, field, value)] + Rewrite(slides[1..], id, field, value)
  }

  function Written(s: Slide, id: string, field: Field, value: string): Slide {
    if s.id != id then s
    else if field == Title then s.(title := value)
    else s.(content := value)
  }

  // ---------------------------------------------------------------------------------------------
  // Presenting.

  /** Present: from the first position of the active slide (`findIndex`, -1 when no slide has
      the active id), or the first slide with no active slide. The button is disabled on an
      empty deck, so nothing happens. */
  function StartPresentation(d: Deck): (r: Deck)
    ensures |d.slides| == 0 ==> r == d
    ensures |d.slides| > 0 ==> r.presenting && r.slides == d.slides && r.active == d.active
    ensures |d.slides| > 0 && Truthy(d.active) && HasSlide(d.slides, d.active.value) ==>
      && 0 <= r.index < |d.slides| && d.slides[r.index].id == d.active.value
      && forall j :: 0 <= j < r.index ==> d.slides[j].id != d.active.value
    ensures |d.slides| > 0 && Truthy(d.active) && !HasSlide(d.slides, d.active.value) ==> r.index == -1
    ensures |d.slides| > 0 && !Truthy(d.active) ==> r.index == 0
  {
    if |d.slides| == 0 then d
    else
      var i := if Truthy(d.active) then FindIndex(d.slides, d.active.value) else 0;
      d.(presenting := true, index := i)
  }

  /** A key press: ignored unless presenting; `ArrowRight` and space step forward and stop at
      the last slide, `ArrowLeft` steps back and stops at the first, `Escape` leaves the
      presentation. Every other key does nothing. */
  function KeyDown(d: Deck, key: string): (r: Deck)
    ensures r.slides == d.slides && r.active == d.active
    ensures !d.presenting ==> r == d
  {
    if !d.presenting then d
    else if key == "ArrowRight" || key == " " then d.(index := Min(d.index + 1, |d.slides| - 1))
    else if key == "ArrowLeft" then d.(index := Max(d.index - 1, 0))
    else if key == "Escape" then d.(presenting := false)
    else d
  }

  // ---------------------------------------------------------------------------------------------
  // The deck's invariant and what the handlers keep.

  /** Every slide has a non-empty id, an active id names a slide, and while presenting the index
      names a slide. */
  predicate WellFormed(d: Deck) {
    && (forall i :: 0 <= i < |d.slides| ==> d.slides[i].id != "")
    && (d.active.Some? ==> HasSlide(d.slides, d.active.value))
    && (d.presenting ==> 0 <= d.index < |d.slides|)
  }

  /** In a well-formed deck an active id is truthy, and the editor has a slide to show. */
  lemma ActiveShown(d: Deck)
    requires WellFormed(d) && d.active.Some?
    ensures Truthy(d.active) && ActiveSlide(d).Some?
  {
    var i :| 0 <= i < |d.slides| && d.slides[i].id == d.active.value;
  }

  lemma InitialWellFormed()
    ensures WellFormed(Initial())
  {
    assert Initial().slides[0].id == "1";
  }

  lemma AddSlideWellFormed(d: Deck, newId: string)
    requires WellFormed(d) && !d.presenting && newId != ""
    ensures WellFormed(AddSlide(d, newId))
    ensures ActiveSlide(AddSlide(d, newId)).Some?
  {
    var r := AddSlide(d, newId);
    assert r.slides[|d.slides|].id == newId;
    forall i | 0 <= i < |r.slides| ensures r.slides[i].id != "" {
      if i < |d.slides| {
        assert r.slides[i] == r.slides[..|d.slides|][i];
      }
    }
  }

  lemma SelectWellFormed(d: Deck, id: string)
    requires WellFormed(d) && HasSlide(d.slides, id)
    ensures WellFormed(Select(d, id))
  {
  }

  lemma DeleteSlideWellFormed(d: Deck, id: string)
    requires WellFormed(d) && !d.presenting
    ensures WellFormed(DeleteSlide(d, id))
  {
    var r := DeleteSlide(d, id);
    forall i | 0 <= i < |r.slides| ensures r.slides[i].id != "" {
      assert r.slides[i] in d.slides;
    }
    if r.active.Some? {
      if d.active == Some(id) {
        assert r.slides[0].id == r.active.value;
      } else {
        var i :| 0 <= i < |d.slides| && d.slides[i].id == d.active.value;
        assert d.slides[i] in r.slides;
        var j :| 0 <= j < |r.slides| && r.slides[j] == d.slides[i];
      }
    }
  }

  lemma UpdateSlideWellFormed(d: Deck, field: Field, value: string)
    requires WellFormed(d)
    ensures WellFormed(UpdateSlide(d, field, value))
  {
    var r := UpdateSlide(d, field, value);
    if r.active.Some? {
      var i :| 0 <= i < |d.slides| && d.slides[i].id == d.active.value;
      assert r.slides[i].id == d.active.value;
    }
  }

  /** Starting a well-formed deck with slides shows the active slide, or the first one. */
  lemma StartWellFormed(d: Deck)
    requires WellFormed(d)
    ensures WellFormed(StartPresentation(d))
    ensures |d.slides| > 0 && d.active.Some? ==>
      StartPresentation(d).slides[StartPresentation(d).index] == ActiveSlide(d).value
  {
    if |d.slides| > 0 && d.active.Some? {
      ActiveShown(d);
    }
  }

  /** Key presses keep a well-formed deck well-formed: the index stays on a slide. */
  lemma KeyDownWellFormed(d: Deck, key: string)
    requires WellFormed(d)
    ensures WellFormed(KeyDown(d, key))
    ensures KeyDown(d, key).presenting ==> 0 <= KeyDown(d, key).index < |d.slides|
  {
  }

  /** One step forward and one back return to the same slide, except at the last slide. */
  lemma ForwardBack(d: Deck)
    requires d.presenting && 0 <= d.index < |d.slides| - 1
    ensures KeyDown(KeyDown(d, "ArrowRight"), "ArrowLeft") == d
  {
  }

  /** One step back and one forward return to the same slide, except at the first slide. */
  lemma BackForward(d: Deck)
    requires d.presenting && 0 < d.index < |d.slides|
    ensures KeyDown(KeyDown(d, "ArrowLeft"), "ArrowRight") == d
  {
  }

  /** Stepping forward from the last slide and back from the first stay put. */
  lemma StepsSaturate(d: Deck)
    requires d.presenting && |d.slides| > 0
    ensures d.index == |d.slides| - 1 ==> KeyDown(d, "ArrowRight") == d && KeyDown(d, " ") == d
    ensures d.index == 0 ==> KeyDown(d, "ArrowLeft") == d
  {
  }

  /** Escape leaves the presentation and a second Escape changes nothing. */
  lemma EscapeLeaves(d: Deck)
    requires d.presenting
    ensures !KeyDown(d, "Escape").presenting
    ensures KeyDown(KeyDown(d, "Escape"), "Escape") == KeyDown(d, "Escape")
  {
  }

  /** Space steps like `ArrowRight`; away from the ends a step moves by exactly one slide; any
      other key leaves the presentation as it is. */
  lemma KeySteps(d: Deck, key: string)
    requires d.presenting && 0 <= d.index < |d.slides|
    ensures KeyDown(d, " ") == KeyDown(d, "ArrowRight")
    ensures d.index < |d.slides| - 1 ==> KeyDown(d, "ArrowRight").index == d.index + 1
    ensures 0 < d.index ==> KeyDown(d, "ArrowLeft").index == d.index - 1
    ensures key != "ArrowRight" && key != " " && key != "ArrowLeft" && key != "Escape" ==> KeyDown(d, key) == d
  {
  }

  /** Deleting keeps the remaining slides in their order. */
  lemma DeleteSlideKeepsOrder(d: Deck, id: string, i: int, j: int)
    requires 0 <= i < j < |d.slides| && d.slides[i].id != id && d.slides[j].id != id
    ensures var r := DeleteSlide(d, id).slides;
      exists p, q :: 0 <= p < q < |r| && r[p] == d.slides[i] && r[q] == d.slides[j]
  {
    FilterKeepsOrder(d.slides, (s: Slide) => s.id != id, i, j);
  }
}

=== FILE: sheet.dfy ===
/** The whole evaluation pass over a sheet and what its results mean: every result agrees with
    its cell's text, and when the SUM references form no cycle every SUM shows the total of the
    values its range shows, whatever order the cells are visited in. */
module Sheet {
  import opened Text
  import opened Formula
  import opened Evaluator

  /** A result agrees with its cell's text: plain text is shown as typed, a formula without a
      SUM match is `#NAME?`, and a SUM shows a canonical integer numeral (never `#REF!`). */
  predicate Agrees(cells: Cells, k: string, v: string) {
    match Classify(Raw(cells, k))
    case Literal => v == Raw(cells, k)
    case Unknown => v == NameError
    case Sum(_) => v == IntToString(Coerce(v))
  }

  predicate Consistent(cells: Cells, memo: map<string, string>) {
    forall k :: k in memo ==> Agrees(cells, k, memo[k])
  }

  lemma {:induction false} EvalConsistent(cells: Cells, key: string, st: State)
    requires Consistent(cells, st.memo)
    ensures Consistent(cells, Eval(cells, key, st).st.memo)
    decreases |cells.Keys - st.processing|, 0, 0
  {
    if key !in st.memo && key !in st.processing {
      match Classify(Raw(cells, key))
      case Literal =>
      case Unknown =>
      case Sum(m) =>
        assert key in cells;
        var inner := State(st.memo, st.processing + {key});
        assert cells.Keys - inner.processing == (cells.Keys - st.processing) - {key};
        EvalSumConsistent(cells, key, SumKeys(m), inner);
    }
  }

  lemma {:induction false} EvalSumConsistent(cells: Cells, key: string, range: seq<string>, inner: State)
    requires key in inner.processing && key !in inner.memo
    requires Classify(Raw(cells, key)).Sum?
    requires Consistent(cells, inner.memo)
    ensures Consistent(cells, EvalSum(cells, key, range, inner).st.memo)
    decreases |cells.Keys - inner.processing|, 2, 0
  {
    var w := EvalRange(cells, range, inner);
    EvalRangeConsistent(cells, range, inner);
    CoerceOfIntToString(w.total);
    assert Agrees(cells, key, IntToString(w.total));
  }

  lemma {:induction false} EvalRangeConsistent(cells: Cells, keys: seq<string>, st: State)
    requires Consistent(cells, st.memo)
    ensures Consistent(cells, EvalRange(cells, keys, st).st.memo)
    decreases |cells.Keys - st.processing|, 1, |keys|
  {
    if |keys| > 0 {
      EvalConsistent(cells, keys[0], st);
      var s := Eval(cells, keys[0], st);
      EvalRangeConsistent(cells, keys[1..], s.st);
    }
  }

  /** Totals only depend on the entries of the keys summed. */
  lemma {:induction false} TotalCongruent(keys: seq<string>, m1: map<string, string>, m2: map<string, string>)
    requires forall j :: j in keys ==> j in m1 && j in m2 && m1[j] == m2[j]
    ensures Total(keys, m1) == Total(keys, m2)
    decreases |keys|
  {
    if |keys| > 0 {
      assert keys[0] in keys;
      assert forall j :: j in keys[1..] ==> j in keys;
      TotalCongruent(keys[1..], m1, m2);
    }
  }

  /** `j` ranks strictly below `k`. */
  predicate Ranked(rank: map<string, nat>, j: string, k: string) {
    j in rank && k in rank && rank[j] < rank[k]
  }

  predicate IsSum(cells: Cells, k: string) {
    Classify(Raw(cells, k)).Sum?
  }

  /** The keys a cell's text refers to: the range of its SUM, if it is one. */
  function Refs(cells: Cells, k: string): seq<string> {
    match Classify(Raw(cells, k))
    case Sum(m) => SumKeys(m)
    case _ => []
  }

  /** The SUM references form no cycle: a rank that every SUM cell in the range of a SUM cell
      lies strictly below. */
  predicate Acyclic(cells: Cells, rank: map<string, nat>) {
    forall k, j :: k in cells && j in Refs(cells, k) && IsSum(cells, j) ==> Ranked(rank, j, k)
  }

  /** A memoised result is settled: a SUM has all its range memoised and shows their total;
      anything else agrees with its text. */
  predicate SettledAt(cells: Cells, memo: map<string, string>, k: string)
    requires k in memo
  {
    match Classify(Raw(cells, k))
    case Sum(m) =>
      && (forall j :: j in SumKeys(m) ==> j in memo)
      && memo[k] == IntToString(Total(SumKeys(m), memo))
    case _ => Agrees(cells, k, memo[k])
  }

  predicate Settled(cells: Cells, memo: map<string, string>) {
    forall k {:trigger SettledAt(cells, memo, k)} :: k in memo ==> SettledAt(cells, memo, k)
  }

  /** Every key on the evaluation stack is a SUM cell. */
  predicate SumStack(cells: Cells, processing: set<string>) {
    forall p :: p in processing ==> IsSum(cells, p)
  }

  /** `key`, if it is a SUM cell, ranks below every key on the stack. */
  predicate BelowStack(cells: Cells, rank: map<string, nat>, processing: set<string>, key: string) {
    IsSum(cells, key) ==> forall p :: p in processing ==> Ranked(rank, key, p)
  }

  /** Adding a settled entry for a new key keeps the earlier entries settled. */
  lemma SettledExtend(cells: Cells, memo: map<string, string>, key: string, v: string)
    requires Settled(cells, memo) && key !in memo
    requires SettledAt(cells, memo[key := v], key)
    ensures Settled(cells, memo[key := v])
  {
    var memo' := memo[key := v];
    forall k | k in memo' ensures SettledAt(cells, memo', k) {
      if k != key {
        assert SettledAt(cells, memo, k);
        match Classify(Raw(cells, k))
        case Sum(m) =>
          TotalCongruent(SumKeys(m), memo, memo');
        case _ =>
      }
    }
  }

  lemma {:induction false} EvalSettles(cells: Cells, rank: map<string, nat>, key: string, st: State)
    requires Acyclic(cells, rank) && Settled(cells, st.memo)
    requires SumStack(cells, st.processing) && BelowStack(cells, rank, st.processing, key)
    ensures key in Eval(cells, key, st).st.memo
    ensures Settled(cells, Eval(cells, key, st).st.memo)
    decreases |cells.Keys - st.processing|, 0, 0
  {
    if key !in st.memo {
      if key in st.processing {
        assert false;
      }
      var r := Eval(cells, key, st);
      match Classify(Raw(cells, key))
      case Literal =>
        SettledExtend(cells, st.memo, key, r.value);
      case Unknown =>
        SettledExtend(cells, st.memo, key, r.value);
      case Sum(m) =>
        assert key in cells;
        var inner := State(st.memo, st.processing + {key});
        assert cells.Keys - inner.processing == (cells.Keys - st.processing) - {key};
        EvalSumSettles(cells, rank, key, m, inner);
    }
  }

  lemma {:induction false} EvalSumSettles(cells: Cells, rank: map<string, nat>, key: string, m: SumRange, inner: State)
    requires Acyclic(cells, rank) && Settled(cells, inner.memo)
    requires key in inner.processing && key !in inner.memo
    requires Classify(Raw(cells, key)) == Sum(m)
    requires SumStack(cells, inner.processing)
    requires forall p :: p in inner.processing && p != key ==> Ranked(rank, key, p)
    ensures var r := EvalSum(cells, key, SumKeys(m), inner);
            key in r.st.memo && Settled(cells, r.st.memo)
    decreases |cells.Keys - inner.processing|, 2, 0
  {
    var ks := SumKeys(m);
    RangeBelowStack(cells, rank, key, m, inner.processing);
    EvalRangeSettles(cells, rank, ks, inner);
    EvalRangeTotal(cells, ks, inner);
    var w := EvalRange(cells, ks, inner);
    SettledSum(cells, key, m, w.st.memo, w.total);
  }

  lemma AcyclicAt(cells: Cells, rank: map<string, nat>, k: string, j: string)
    requires Acyclic(cells, rank) && k in cells && IsSum(cells, j)
    ensures j in Refs(cells, k) ==> Ranked(rank, j, k)
  {
  }

  /** The range of an acyclic SUM lies below the stack the SUM was pushed onto, and does not
      contain the SUM's own key. */
  lemma RangeBelowStack(cells: Cells, rank: map<string, nat>, key: string, m: SumRange, processing: set<string>)
    requires Acyclic(cells, rank)
    requires Classify(Raw(cells, key)) == Sum(m)
    requires forall p :: p in processing && p != key ==> Ranked(rank, key, p)
    ensures forall j :: j in SumKeys(m) ==> BelowStack(cells, rank, processing, j)
    ensures key !in SumKeys(m)
  {
    assert key in cells && Refs(cells, key) == SumKeys(m);
    AcyclicAt(cells, rank, key, key);
    forall j | j in Refs(cells, key) ensures BelowStack(cells, rank, processing, j) {
      if IsSum(cells, j) {
        AcyclicAt(cells, rank, key, j);
      }
    }
  }

  /** Memoising the rendered total of a fully memoised range settles the SUM. */
  lemma SettledSum(cells: Cells, key: string, m: SumRange, memo: map<string, string>, total: int)
    requires Settled(cells, memo) && key !in memo
    requires Classify(Raw(cells, key)) == Sum(m)
    requires key !in SumKeys(m) && forall j :: j in SumKeys(m) ==> j in memo
    requires total == Total(SumKeys(m), memo)
    ensures Settled(cells, memo[key := IntToString(total)])
  {
    var v := IntToString(total);
    TotalCongruent(SumKeys(m), memo, memo[key := v]);
    SettledExtend(cells, memo, key, v);
  }

  lemma {:induction false} EvalRangeSettles(cells: Cells, rank: map<string, nat>, keys: seq<string>, st: State)
    requires Acyclic(cells, rank) && Settled(cells, st.memo)
    requires SumStack(cells, st.processing)
    requires forall j :: j in keys ==> BelowStack(cells, rank, st.processing, j)
    ensures forall j :: j in keys ==> j in EvalRange(cells, keys, st).st.memo
    ensures Settled(cells, EvalRange(cells, keys, st).st.memo)
    decreases |cells.Keys - st.processing|, 1, |keys|
  {
    if |keys| > 0 {
      EvalSettles(cells, rank, keys[0], st);
      var s := Eval(cells, keys[0], st);
      assert forall j :: j in keys[1..] ==> j in keys;
      EvalRangeSettles(cells, rank, keys[1..], s.st);
      assert forall j :: j in keys ==> j == keys[0] || j in keys[1..];
    }
  }

  /** Two settled memos agree wherever both have a result: on an acyclic sheet the settled
      values are determined by the cells alone. */
  lemma {:induction false} SettledUnique(cells: Cells, rank: map<string, nat>, m1: map<string, string>,
                                         m2: map<string, string>, k: string)
    requires Acyclic(cells, rank) && Settled(cells, m1) && Settled(cells, m2)
    requires k in m1 && k in m2
    ensures m1[k] == m2[k]
    decreases if k in rank then rank[k] else 0
  {
    assert SettledAt(cells, m1, k) && SettledAt(cells, m2, k);
    match Classify(Raw(cells, k))
    case Sum(m) =>
      assert k in cells && Refs(cells, k) == SumKeys(m);
      forall j | j in SumKeys(m) ensures j in m1 && j in m2 && m1[j] == m2[j] {
        if IsSum(cells, j) {
          AcyclicAt(cells, rank, k, j);
          SettledUnique(cells, rank, m1, m2, j);
        } else {
          assert SettledAt(cells, m1, j) && SettledAt(cells, m2, j);
        }
      }
      TotalCongruent(SumKeys(m), m1, m2);
    case _ =>
  }

  /** The pass: `Object.keys(cells).forEach(evaluateCell)`, each cell evaluated from an empty
      stack against the results so far; `order` is the enumeration order of the keys. */
  function EvaluateKeys(cells: Cells, order: seq<string>, memo: map<string, string>): map<string, string>
    decreases |order|
  {
    if |order| == 0 then memo
    else EvaluateKeys(cells, order[1..], Eval(cells, order[0], State(memo, {})).st.memo)
  }

  /** The grid's values: the pass started from no results. */
  function Evaluate(cells: Cells, order: seq<string>): map<string, string> {
    EvaluateKeys(cells, order, map[])
  }

  /** The pass keeps earlier results, gives every enumerated key a result, and keeps the
      results in agreement with the cells. */
  lemma {:induction false} EvaluateKeysSound(cells: Cells, order: seq<string>, memo: map<string, string>)
    requires Consistent(cells, memo)
    ensures Extends(memo, EvaluateKeys(cells, order, memo))
    ensures forall k :: k in order ==> k in EvaluateKeys(cells, order, memo)
    ensures Consistent(cells, EvaluateKeys(cells, order, memo))
    decreases |order|
  {
    if |order| > 0 {
      var st := State(memo, {});
      var next := Eval(cells, order[0], st).st.memo;
      EvalConsistent(cells, order[0], st);
      EvaluateKeysSound(cells, order[1..], next);
      assert forall k :: k in order ==> k == order[0] || k in order[1..];
    }
  }

  /** On an acyclic sheet the pass only ever produces settled results. */
  lemma {:induction false} EvaluateKeysSettled(cells: Cells, rank: map<string, nat>, order: seq<string>,
                                               memo: map<string, string>)
    requires Acyclic(cells, rank) && Settled(cells, memo)
    ensures Settled(cells, EvaluateKeys(cells, order, memo))
    decreases |order|
  {
    if |order| > 0 {
      var st := State(memo, {});
      EvalSettles(cells, rank, order[0], st);
      EvaluateKeysSettled(cells, rank, order[1..], Eval(cells, order[0], st).st.memo);
    }
  }

  /** Every enumerated cell gets a result that agrees with its text: its text, `#NAME?`, or a
      canonical integer numeral. */
  lemma EvaluateSound(cells: Cells, order: seq<string>)
    ensures forall k :: k in order ==> k in Evaluate(cells, order)
    ensures Consistent(cells, Evaluate(cells, order))
  {
    EvaluateKeysSound(cells, order, map[]);
  }

  /** `#REF!` is never a result of the pass unless the cell's text is `#REF!` itself: a circular
      reference is only ever read as `#REF!` by the SUM that meets it, never memoised. */
  lemma RefErrorOnlyTyped(cells: Cells, order: seq<string>)
    ensures forall k :: k in Evaluate(cells, order) && Evaluate(cells, order)[k] == RefError ==>
      Raw(cells, k) == RefError
  {
    var memo := Evaluate(cells, order);
    EvaluateSound(cells, order);
    forall k | k in memo && memo[k] == RefError ensures Raw(cells, k) == RefError {
      assert Agrees(cells, k, memo[k]);
      match Classify(Raw(cells, k))
      case Literal =>
      case Unknown =>
      case Sum(_) =>
        IntToStringHead(Coerce(memo[k]));
    }
  }

  /** Without circular references, every SUM shows the sum of the values its range shows, and
      the results do not depend on the order in which the cells are enumerated. */
  lemma EvaluateAcyclic(cells: Cells, rank: map<string, nat>, order1: seq<string>, order2: seq<string>)
    requires Acyclic(cells, rank)
    ensures Settled(cells, Evaluate(cells, order1))
    ensures forall k :: k in Evaluate(cells, order1) && k in Evaluate(cells, order2) ==>
      Evaluate(cells, order1)[k] == Evaluate(cells, order2)[k]
  {
    EvaluateKeysSettled(cells, rank, order1, map[]);
    EvaluateKeysSettled(cells, rank, order2, map[]);
    forall k | k in Evaluate(cells, order1) && k in Evaluate(cells, order2)
      ensures Evaluate(cells, order1)[k] == Evaluate(cells, order2)[k]
    {
      SettledUnique(cells, rank, Evaluate(cells, order1), Evaluate(cells, order2), k);
    }
  }

  /** What the grid shows for a key: its result, or empty text when it has none
      (`evaluatedCells[key] || ''`). */
  function Shown(memo: map<string, string>, k: string): string {
    if k in memo then memo[k] else ""
  }

  /** Without circular references the grid does not depend on the enumeration order: two
      passes that each visit every cell show the same text at every key. A key only one of
      them evaluated is a cell-less range key, whose result is the empty text. */
  lemma EvaluateOrderFree(cells: Cells, rank: map<string, nat>, order1: seq<string>, order2: seq<string>)
    requires Acyclic(cells, rank)
    requires forall k :: k in cells ==> k in order1 && k in order2
    ensures forall k :: Shown(Evaluate(cells, order1), k) == Shown(Evaluate(cells, order2), k)
  {
    var m1 := Evaluate(cells, order1);
    var m2 := Evaluate(cells, order2);
    EvaluateAcyclic(cells, rank, order1, order2);
    EvaluateSound(cells, order1);
    EvaluateSound(cells, order2);
    forall k ensures Shown(m1, k) == Shown(m2, k) {
      if k in m1 && k !in m2 {
        assert Agrees(cells, k, m1[k]);
      } else if k in m2 && k !in m1 {
        assert Agrees(cells, k, m2[k]);
      }
    }
  }
}

=== FILE: sheet_examples.dfy ===
/** The spreadsheet's seed data and the documented small sheets, evaluated. */
module SheetExamples {
  import opened Text
  import opened Formula
  import opened Evaluator
  import opened Sheet

  /** The cells the spreadsheet starts with. */
  function Seed(): Cells {
    map[
      "A1" := "Revenue", "B1" := "1000", "C1" := "1200", "D1" := "1500",
      "A2" := "Expenses", "B2" := "800", "C2" := "900", "D2" := "1100",
      "A4" := "Profit", "B4" := "=SUM(B1:B2)", "C4" := "=SUM(C1:C2)", "D4" := "=SUM(D1:D2)"
    ]
  }

  /** `=SUM(x1:x2)` for a column letter `x`: a SUM over rows 1 and 2 of that column. */
  lemma ColumnPairSum(x: char)
    requires 'A' <= x <= 'Z'
    ensures var m := SumRange(CellRef([x], "1"), CellRef([x], "2"));
      && Classify(['=', 'S', 'U', 'M', '(', x, '1', ':', x, '2', ')']) == Sum(m)
      && SumKeys(m) == [[x, '1'], [x, '2']]
  {
    var m := SumRange(CellRef([x], "1"), CellRef([x], "2"));
    var t := ['=', 'S', 'U', 'M', '(', x, '1', ':', x, '2', ')'];
    assert CornersText(m) == t[5..];
    ClassifyLeadingSum(t, m);
    var c := (x as int) - 65;
    assert ColLo(m) == c && ColHi(m) == c;
    assert RowLo(m) == 1 && RowHi(m) == 2;
    assert KeyOf(c, 1) == [x, '1'];
    assert KeyOf(c, 2) == [x, '2'];
    assert ColumnKeys(c, 1, 2) == [[x, '1'], [x, '2']];
    assert BlockKeys(c, c, 1, 2) == ColumnKeys(c, 1, 2);
  }

  lemma AppendDigit(n: nat, d: nat)
    requires n >= 1 && d <= 9
    ensures NatToString(10 * n + d) == NatToString(n) + [DigitChar(d)]
  {
    var k := 10 * n + d;
    assert k / 10 == n by {
      assert 10 * n <= k < 10 * (n + 1);
    }
    assert k % 10 == d;
  }

  /** `d` followed by zeros: the rendering of `d * 100` and `d * 1000`. */
  lemma RenderHundreds(a: nat, b: nat)
    requires 1 <= a <= 9 && b <= 9
    ensures NatToString(100 * a + 10 * b) == [DigitChar(a), DigitChar(b), '0']
  {
    var n := 10 * a + b;
    AppendDigit(a, b);
    AppendDigit(n, 0);
    assert 10 * n + 0 == 100 * a + 10 * b;
    assert NatToString(a) == [DigitChar(a)];
    assert DigitChar(0) == '0';
  }

  lemma RenderThousands(a: nat, b: nat)
    requires 1 <= a <= 9 && b <= 9
    ensures NatToString(1000 * a + 100 * b) == [DigitChar(a), DigitChar(b), '0', '0']
  {
    RenderHundreds(a, b);
    AppendDigit(100 * a + 10 * b, 0);
  }

  /** In a settled result, a cell holding `=SUM(x1:x2)` over two numerals shows their sum. */
  lemma SettledColumnPair(cells: Cells, memo: map<string, string>, x: char, a: nat, b: nat)
    requires 'A' <= x <= 'Z'
    requires Settled(cells, memo) && [x, '4'] in memo
    requires Raw(cells, [x, '4']) == ['=', 'S', 'U', 'M', '(', x, '1', ':', x, '2', ')']
    requires Raw(cells, [x, '1']) == IntToString(a) && Raw(cells, [x, '2']) == IntToString(b)
    ensures memo[[x, '4']] == IntToString(a + b)
  {
    ColumnPairSum(x);
    SettledPair(cells, memo, [x, '4'], [x, '1'], [x, '2'], a, b);
  }

  /** A settled SUM over exactly two numeral cells shows the sum of the two numbers. */
  lemma SettledPair(cells: Cells, memo: map<string, string>, k: string, k1: string, k2: string, a: nat, b: nat)
    requires Settled(cells, memo) && k in memo
    requires Classify(Raw(cells, k)).Sum? && SumKeys(Classify(Raw(cells, k)).range) == [k1, k2]
    requires Raw(cells, k1) == IntToString(a) && Raw(cells, k2) == IntToString(b)
    ensures memo[k] == IntToString(a + b)
  {
    SettledSumOf(cells, memo, k, [k1, k2]);
    PairOperands(cells, memo, k1, k2, a, b);
    PairTotal(memo, k1, k2, a, b);
  }

  /** Two settled cells holding numerals show those numerals. */
  lemma PairOperands(cells: Cells, memo: map<string, string>, k1: string, k2: string, a: nat, b: nat)
    requires Settled(cells, memo) && k1 in memo && k2 in memo
    requires Raw(cells, k1) == IntToString(a) && Raw(cells, k2) == IntToString(b)
    ensures memo[k1] == IntToString(a) && memo[k2] == IntToString(b)
  {
    NatToStringDigits(a);
    NatToStringDigits(b);
    SettledPlain(cells, memo, k1);
    SettledPlain(cells, memo, k2);
  }

  /** Two cells showing numerals total their sum. */
  lemma PairTotal(memo: map<string, string>, k1: string, k2: string, a: nat, b: nat)
    requires k1 in memo && k2 in memo
    requires memo[k1] == IntToString(a) && memo[k2] == IntToString(b)
    ensures Total([k1, k2], memo) == a + b
  {
    CoerceOfIntToString(a);
    CoerceOfIntToString(b);
    TotalCons(k1, [k2], memo);
    TotalCons(k2, [], memo);
  }

  /** A `=SUM(x1:x2)` cell over two plain-text cells refers to no SUM cell. */
  lemma FlatPair(cells: Cells, x: char)
    requires 'A' <= x <= 'Z'
    requires Raw(cells, [x, '4']) == ['=', 'S', 'U', 'M', '(', x, '1', ':', x, '2', ')']
    requires !IsFormula(Raw(cells, [x, '1'])) && !IsFormula(Raw(cells, [x, '2']))
    ensures forall j :: j in Refs(cells, [x, '4']) ==> !IsSum(cells, j)
  {
    ColumnPairSum(x);
    assert Refs(cells, [x, '4']) == [[x, '1'], [x, '2']];
  }

  /** Plain text refers to nothing. */
  lemma PlainRefs(cells: Cells, k: string)
    requires !IsFormula(Raw(cells, k))
    ensures Refs(cells, k) == []
  {
  }

  /** No SUM of the seed refers to a SUM cell. */
  lemma SeedFlat()
    ensures forall k, j :: k in Seed() && j in Refs(Seed(), k) ==> !IsSum(Seed(), j)
  {
    var cells := Seed();
    forall k | k in cells ensures forall j :: j in Refs(cells, k) ==> !IsSum(cells, j) {
      if k == "B4" {
        FlatPair(cells, 'B');
      } else if k == "C4" {
        FlatPair(cells, 'C');
      } else if k == "D4" {
        FlatPair(cells, 'D');
      } else {
        PlainRefs(cells, k);
      }
    }
  }

  /** A sheet none of whose SUMs refers to a SUM cell is acyclic with every rank 0, so its
      pass settles every cell it enumerates. */
  lemma FlatSettled(cells: Cells, order: seq<string>)
    requires forall k, j :: k in cells && j in Refs(cells, k) ==> !IsSum(cells, j)
    requires forall k :: k in cells ==> k in order
    ensures Settled(cells, Evaluate(cells, order))
    ensures forall k :: k in cells ==> k in Evaluate(cells, order)
  {
    EvaluateSound(cells, order);
    assert Acyclic(cells, map[]);
    EvaluateAcyclic(cells, map[], order, order);
  }

  /** A settled SUM cell shows the total of its range's settled values. */
  lemma SettledSumOf(cells: Cells, memo: map<string, string>, k: string, keys: seq<string>)
    requires Settled(cells, memo) && k in memo
    requires Classify(Raw(cells, k)).Sum? && SumKeys(Classify(Raw(cells, k)).range) == keys
    ensures forall j :: j in keys ==> j in memo
    ensures memo[k] == IntToString(Total(keys, memo))
  {
    assert SettledAt(cells, memo, k);
  }

  /** A settled plain-text cell shows its text. */
  lemma SettledPlain(cells: Cells, memo: map<string, string>, k: string)
    requires Settled(cells, memo) && k in memo
    requires !IsFormula(Raw(cells, k))
    ensures memo[k] == Raw(cells, k)
  {
    assert SettledAt(cells, memo, k);
  }

  /** Evaluating the seed settles every cell. */
  lemma SeedSettled(order: seq<string>)
    requires forall k :: k in Seed() ==> k in order
    ensures Settled(Seed(), Evaluate(Seed(), order))
    ensures "B4" in Evaluate(Seed(), order) && "C4" in Evaluate(Seed(), order) && "D4" in Evaluate(Seed(), order)
  {
    SeedFlat();
    FlatSettled(Seed(), order);
    assert "B4" in Seed() && "C4" in Seed() && "D4" in Seed();
  }

  /** The seed's raw texts that the Profit row reads. */
  lemma SeedText()
    ensures Raw(Seed(), "B4") == "=SUM(B1:B2)" && Raw(Seed(), "C4") == "=SUM(C1:C2)"
    ensures Raw(Seed(), "D4") == "=SUM(D1:D2)"
    ensures Raw(Seed(), "B1") == "1000" && Raw(Seed(), "B2") == "800"
    ensures Raw(Seed(), "C1") == "1200" && Raw(Seed(), "C2") == "900"
    ensures Raw(Seed(), "D1") == "1500" && Raw(Seed(), "D2") == "1100"
  {
  }

  lemma SeedNumerals()
    ensures IntToString(1000) == "1000" && IntToString(800) == "800" && IntToString(1800) == "1800"
    ensures IntToString(1200) == "1200" && IntToString(900) == "900" && IntToString(2100) == "2100"
    ensures IntToString(1500) == "1500" && IntToString(1100) == "1100" && IntToString(2600) == "2600"
  {
    RenderThousands(1, 0);
    RenderHundreds(8, 0);
    RenderThousands(1, 8);
    RenderThousands(1, 2);
    RenderHundreds(9, 0);
    RenderThousands(2, 1);
    RenderThousands(1, 5);
    RenderThousands(1, 1);
    RenderThousands(2, 6);
  }

  lemma SeedColumns(memo: map<string, string>)
    requires Settled(Seed(), memo) && "B4" in memo && "C4" in memo && "D4" in memo
    ensures memo["B4"] == "1800" && memo["C4"] == "2100" && memo["D4"] == "2600"
  {
    SeedText();
    SeedNumerals();
    SettledColumnPair(Seed(), memo, 'B', 1000, 800);
    SettledColumnPair(Seed(), memo, 'C', 1200, 900);
    SettledColumnPair(Seed(), memo, 'D', 1500, 1100);
  }

  /** The seed's Profit row: `B4`, `C4` and `D4` show 1800, 2100 and 2600. */
  lemma SeedProfit(order: seq<string>)
    requires forall k :: k in Seed() ==> k in order
    ensures "B4" in Evaluate(Seed(), order) && Evaluate(Seed(), order)["B4"] == "1800"
    ensures "C4" in Evaluate(Seed(), order) && Evaluate(Seed(), order)["C4"] == "2100"
    ensures "D4" in Evaluate(Seed(), order) && Evaluate(Seed(), order)["D4"] == "2600"
  {
    SeedSettled(order);
    var memo := Evaluate(Seed(), order);
    SeedColumns(memo);
  }

  /** A SUM whose corners are one letter and one digit each is matched with those corners. */
  lemma ShortSum(x: char, p: char, y: char, q: char)
    requires 'A' <= x <= 'Z' && 'A' <= y <= 'Z' && '1' <= p <= '9' && '1' <= q <= '9'
    ensures Classify(['=', 'S', 'U', 'M', '(', x, p, ':', y, q, ')'])
         == Sum(SumRange(CellRef([x], [p]), CellRef([y], [q])))
  {
    var m := SumRange(CellRef([x], [p]), CellRef([y], [q]));
    var t := ['=', 'S', 'U', 'M', '(', x, p, ':', y, q, ')'];
    assert CornersText(m) == t[5..];
    ClassifyLeadingSum(t, m);
  }

  /** Column and row of a one-letter, one-digit corner. */
  lemma ShortCorner(x: char, p: char)
    requires 'A' <= x <= 'Z' && '1' <= p <= '9'
    ensures ValidRef(CellRef([x], [p]))
    ensures ColumnIndex(CellRef([x], [p])) == x as int - 65
    ensures RowNumber(CellRef([x], [p])) == p as int - 48
  {
    assert [p][..0] == [];
    assert DigitsValue([p]) == 10 * DigitsValue([]) + DigitValue(p);
  }

  /** The key of a one-digit row. */
  lemma ShortKey(c: int, r: nat)
    requires 0 <= c <= 25 && 1 <= r <= 9
    ensures KeyOf(c, r) == [(65 + c) as char, DigitChar(r)]
  {
  }

  /** Total of a range, one key at a time. */
  lemma TotalCons(k: string, rest: seq<string>, memo: map<string, string>)
    ensures Total([k] + rest, memo) == Contribution(memo, k) + Total(rest, memo)
  {
    assert ([k] + rest)[1..] == rest;
  }

  /** The block of columns A..B and rows 1..2, column by column. */
  lemma SquareBlock()
    ensures BlockKeys(0, 1, 1, 2) == ["A1", "A2", "B1", "B2"]
  {
    ShortKey(0, 1);
    ShortKey(0, 2);
    ShortKey(1, 1);
    ShortKey(1, 2);
    assert ColumnKeys(0, 1, 2) == ["A1", "A2"];
    assert ColumnKeys(1, 1, 2) == ["B1", "B2"];
    assert BlockKeys(2, 1, 1, 2) == [];
  }

  /** `A1:B2` names the rectangle `A1`, `A2`, `B1`, `B2`, walked column by column. */
  lemma SquareKeys()
    ensures Classify("=SUM(A1:B2)").Sum?
    ensures SumKeys(Classify("=SUM(A1:B2)").range) == ["A1", "A2", "B1", "B2"]
  {
    var m := SumRange(CellRef("A", "1"), CellRef("B", "2"));
    ShortSum('A', '1', 'B', '2');
    ShortCorner('A', '1');
    ShortCorner('B', '2');
    assert ColLo(m) == 0 && ColHi(m) == 1 && RowLo(m) == 1 && RowHi(m) == 2;
    SquareBlock();
  }

  /** A block sum: three fives and an absent cell inside `A1:B2`. */
  function Square(): Cells {
    map["A1" := "5", "B1" := "5", "B2" := "5", "A4" := "=SUM(A1:B2)"]
  }

  lemma SquareText()
    ensures Raw(Square(), "A4") == "=SUM(A1:B2)"
    ensures Raw(Square(), "A1") == "5" && Raw(Square(), "A2") == ""
    ensures Raw(Square(), "B1") == "5" && Raw(Square(), "B2") == "5"
    ensures forall k :: k in Square() ==> k == "A4" || !IsFormula(Raw(Square(), k))
  {
  }

  /** A SUM over plain-text cells refers to no SUM cell. */
  lemma FlatSum(cells: Cells, k: string, keys: seq<string>)
    requires Classify(Raw(cells, k)).Sum? && SumKeys(Classify(Raw(cells, k)).range) == keys
    requires forall j :: j in keys ==> !IsFormula(Raw(cells, j))
    ensures forall j :: j in Refs(cells, k) ==> !IsSum(cells, j)
  {
  }

  lemma SquareFlat()
    ensures forall k, j :: k in Square() && j in Refs(Square(), k) ==> !IsSum(Square(), j)
  {
    var cells := Square();
    SquareText();
    SquareKeys();
    forall k | k in cells ensures forall j :: j in Refs(cells, k) ==> !IsSum(cells, j) {
      if k == "A4" {
        FlatSum(cells, k, ["A1", "A2", "B1", "B2"]);
      } else {
        PlainRefs(cells, k);
      }
    }
  }

  /** In a settled result, `=SUM(A1:B2)` over `5`, nothing, `5`, `5` shows `15`. */
  lemma SettledSquare(cells: Cells, memo: map<string, string>)
    requires Settled(cells, memo) && "A4" in memo
    requires Raw(cells, "A4") == "=SUM(A1:B2)"
    requires Raw(cells, "A1") == "5" && Raw(cells, "A2") == ""
    requires Raw(cells, "B1") == "5" && Raw(cells, "B2") == "5"
    ensures memo["A4"] == "15"
  {
    SquareKeys();
    SettledSumOf(cells, memo, "A4", ["A1", "A2", "B1", "B2"]);
    SquareOperands(cells, memo);
    FivesTotal(memo);
    Fifteen();
  }

  lemma Fifteen()
    ensures IntToString(15) == "15"
  {
    AppendDigit(1, 5);
  }

  /** The four operands of the square show their own text once settled. */
  lemma SquareOperands(cells: Cells, memo: map<string, string>)
    requires Settled(cells, memo)
    requires "A1" in memo && "A2" in memo && "B1" in memo && "B2" in memo
    requires Raw(cells, "A1") == "5" && Raw(cells, "A2") == ""
    requires Raw(cells, "B1") == "5" && Raw(cells, "B2") == "5"
    ensures memo["A1"] == "5" && memo["A2"] == "" && memo["B1"] == "5" && memo["B2"] == "5"
  {
    SettledPlain(cells, memo, "A1");
    SettledPlain(cells, memo, "A2");
    SettledPlain(cells, memo, "B1");
    SettledPlain(cells, memo, "B2");
  }

  /** `A4 = =SUM(A1:B2)` over `5`, nothing, `5`, `5` shows `15`. */
  lemma SquareTotal(order: seq<string>)
    requires forall k :: k in Square() ==> k in order
    ensures "A4" in Evaluate(Square(), order) && Evaluate(Square(), order)["A4"] == "15"
  {
    SquareFlat();
    FlatSettled(Square(), order);
    SquareText();
    assert "A4" in Square();
    SettledSquare(Square(), Evaluate(Square(), order));
  }

  lemma FivesTotal(memo: map<string, string>)
    requires "A1" in memo && "A2" in memo && "B1" in memo && "B2" in memo
    requires memo["A1"] == "5" && memo["A2"] == "" && memo["B1"] == "5" && memo["B2"] == "5"
    ensures Total(["A1", "A2", "B1", "B2"], memo) == 15
  {
    CoerceOfIntToString(5);
    NoLeadingInt("");
    TotalCons("A1", ["A2", "B1", "B2"], memo);
    TotalCons("A2", ["B1", "B2"], memo);
    TotalCons("B1", ["B2"], memo);
    TotalCons("B2", [], memo);
  }

  /** Plain text reads as 0 in a sum. */
  function Words(): Cells {
    map["A1" := "x", "B1" := "3", "C1" := "=SUM(A1:B1)"]
  }

  lemma PairKeys()
    ensures Classify("=SUM(A1:B1)").Sum?
    ensures SumKeys(Classify("=SUM(A1:B1)").range) == ["A1", "B1"]
  {
    var m := SumRange(CellRef("A", "1"), CellRef("B", "1"));
    ShortSum('A', '1', 'B', '1');
    ShortCorner('A', '1');
    ShortCorner('B', '1');
    assert ColLo(m) == 0 && ColHi(m) == 1 && RowLo(m) == 1 && RowHi(m) == 1;
    ShortKey(0, 1);
    ShortKey(1, 1);
    assert ColumnKeys(0, 1, 1) == ["A1"];
    assert ColumnKeys(1, 1, 1) == ["B1"];
    assert BlockKeys(2, 1, 1, 1) == [];
  }

  lemma WordsText()
    ensures Raw(Words(), "C1") == "=SUM(A1:B1)"
    ensures Raw(Words(), "A1") == "x" && Raw(Words(), "B1") == "3"
    ensures forall k :: k in Words() ==> k == "C1" || !IsFormula(Raw(Words(), k))
  {
  }

  lemma WordsFlat()
    ensures forall k, j :: k in Words() && j in Refs(Words(), k) ==> !IsSum(Words(), j)
  {
    var cells := Words();
    WordsText();
    PairKeys();
    forall k | k in cells ensures forall j :: j in Refs(cells, k) ==> !IsSum(cells, j) {
      if k == "C1" {
        FlatSum(cells, k, ["A1", "B1"]);
      } else {
        PlainRefs(cells, k);
      }
    }
  }

  /** In a settled result, `=SUM(A1:B1)` over `x` and `3` shows `3`. */
  lemma SettledWords(cells: Cells, memo: map<string, string>)
    requires Settled(cells, memo) && "C1" in memo
    requires Raw(cells, "C1") == "=SUM(A1:B1)"
    requires Raw(cells, "A1") == "x" && Raw(cells, "B1") == "3"
    ensures memo["C1"] == "3"
  {
    PairKeys();
    SettledSumOf(cells, memo, "C1", ["A1", "B1"]);
    WordsOperands(cells, memo);
    WordsSum(memo);
  }

  /** The two operands of the words example show their own text once settled. */
  lemma WordsOperands(cells: Cells, memo: map<string, string>)
    requires Settled(cells, memo) && "A1" in memo && "B1" in memo
    requires Raw(cells, "A1") == "x" && Raw(cells, "B1") == "3"
    ensures memo["A1"] == "x" && memo["B1"] == "3"
  {
    SettledPlain(cells, memo, "A1");
    SettledPlain(cells, memo, "B1");
  }

  lemma WordsSum(memo: map<string, string>)
    requires "A1" in memo && "B1" in memo && memo["A1"] == "x" && memo["B1"] == "3"
    ensures IntToString(Total(["A1", "B1"], memo)) == "3"
  {
    CoerceOfIntToString(3);
    NoLeadingInt("x");
    TotalCons("A1", ["B1"], memo);
    TotalCons("B1", [], memo);
  }

  /** `C1 = =SUM(A1:B1)` over `x` and `3` shows `3`. */
  lemma WordsTotal(order: seq<string>)
    requires forall k :: k in Words() ==> k in order
    ensures "C1" in Evaluate(Words(), order) && Evaluate(Words(), order)["C1"] == "3"
  {
    WordsFlat();
    FlatSettled(Words(), order);
    WordsText();
    assert "C1" in Words();
    SettledWords(Words(), Evaluate(Words(), order));
  }

  /** A SUM whose range is exactly its own key shows `0`: the key is met on the stack, read as
      `#REF!`, and counted as 0. */
  lemma SelfReference(cells: Cells, key: string, st: State)
    requires key !in st.memo && key !in st.processing
    requires Classify(Raw(cells, key)).Sum? && SumKeys(Classify(Raw(cells, key)).range) == [key]
    ensures Eval(cells, key, st).value == "0"
  {
    var r := Eval(cells, key, st);
    EvalValue(cells, key, st);
    assert key !in r.st.memo - {key};
    TotalCons(key, [], r.st.memo - {key});
    assert [key] + [] == [key];
  }

  /** Two SUMs each over the other's key only: whichever is visited first meets the other on
      the stack's far side, and both show `0`. */
  lemma MutualReference(cells: Cells, a: string, b: string)
    requires a != b
    requires Classify(Raw(cells, a)).Sum? && SumKeys(Classify(Raw(cells, a)).range) == [b]
    requires Classify(Raw(cells, b)).Sum? && SumKeys(Classify(Raw(cells, b)).range) == [a]
    ensures var memo := Evaluate(cells, [a, b]);
      a in memo && b in memo && memo[a] == "0" && memo[b] == "0"
  {
    var st0 := State(map[], {});
    var inner := State(map[], {a});
    var r := Eval(cells, a, st0);
    var s := Eval(cells, b, inner);
    SelfOnStack(cells, b, a, inner);
    assert s.value == "0";
    assert b in s.st.memo && s.st.memo[b] == "0";
    CoerceOfIntToString(0);
    assert IntToString(0) == "0";
    assert [b][1..] == [];
    SingleRange(cells, b, inner);
    assert a !in st0.memo && a !in st0.processing;
    assert State(st0.memo, st0.processing + {a}) == inner;
    assert r == EvalSum(cells, a, [b], inner);
    assert r.value == "0";
    assert r.st.memo == s.st.memo[a := "0"];
    var memo := r.st.memo;
    assert Evaluate(cells, [a, b]) == EvaluateKeys(cells, [b], memo);
    assert Eval(cells, b, State(memo, {})).st.memo == memo;
    assert EvaluateKeys(cells, [b], memo) == EvaluateKeys(cells, [], memo);
  }

  /** A SUM over one key that is on the stack shows `0`. */
  lemma SelfOnStack(cells: Cells, key: string, other: string, st: State)
    requires key !in st.memo && key !in st.processing && other in st.processing
    requires other !in st.memo
    requires Classify(Raw(cells, key)).Sum? && SumKeys(Classify(Raw(cells, key)).range) == [other]
    ensures Eval(cells, key, st).value == "0"
  {
    var r := Eval(cells, key, st);
    EvalValue(cells, key, st);
    assert other !in r.st.memo;
    TotalCons(other, [], r.st.memo - {key});
    assert [other] + [] == [other];
  }

  /** Walking a one-key range evaluates that key and counts its value. */
  lemma SingleRange(cells: Cells, k: string, st: State)
    ensures var s := Eval(cells, k, st);
      EvalRange(cells, [k], st) == Walk(Coerce(s.value), s.st)
  {
    var s := Eval(cells, k, st);
    assert [k][0] == k && [k][1..] == [];
    assert EvalRange(cells, [], s.st) == Walk(0, s.st);
  }

  /** `=SUM(xp:xp)` names the one key `xp`. */
  lemma OneCellKeys(x: char, p: char)
    requires 'A' <= x <= 'Z' && '1' <= p <= '9'
    ensures var t := ['=', 'S', 'U', 'M', '(', x, p, ':', x, p, ')'];
      Classify(t).Sum? && SumKeys(Classify(t).range) == [[x, p]]
  {
    var m := SumRange(CellRef([x], [p]), CellRef([x], [p]));
    ShortSum(x, p, x, p);
    ShortCorner(x, p);
    var c := x as int - 65;
    var r := p as int - 48;
    assert ColLo(m) == c && ColHi(m) == c && RowLo(m) == r && RowHi(m) == r;
    ShortKey(c, r);
    assert (65 + c) as char == x && DigitChar(r) == p;
    assert ColumnKeys(c, r, r) == [[x, p]];
    assert BlockKeys(c + 1, c, r, r) == [];
  }

  /** A cell summing itself. */
  function Loop(): Cells {
    map["A1" := "=SUM(A1:A1)"]
  }

  /** `A1 = =SUM(A1:A1)` shows `0`, not an error. */
  lemma LoopZero()
    ensures "A1" in Evaluate(Loop(), ["A1"]) && Evaluate(Loop(), ["A1"])["A1"] == "0"
  {
    OneCellKeys('A', '1');
    assert Raw(Loop(), "A1") == "=SUM(A1:A1)";
    var st := State(map[], {});
    SelfReference(Loop(), "A1", st);
    assert Evaluate(Loop(), ["A1"]) == Eval(Loop(), "A1", st).st.memo;
  }

  /** Two cells summing each other. */
  function Cycle(): Cells {
    map["A1" := "=SUM(B1:B1)", "B1" := "=SUM(A1:A1)"]
  }

  /** `A1 = =SUM(B1:B1)` and `B1 = =SUM(A1:A1)` both show `0`, in either enumeration order. */
  lemma CycleZero()
    ensures var memo := Evaluate(Cycle(), ["A1", "B1"]);
      "A1" in memo && "B1" in memo && memo["A1"] == "0" && memo["B1"] == "0"
    ensures var memo := Evaluate(Cycle(), ["B1", "A1"]);
      "A1" in memo && "B1" in memo && memo["A1"] == "0" && memo["B1"] == "0"
  {
    OneCellKeys('A', '1');
    OneCellKeys('B', '1');
    assert Raw(Cycle(), "A1") == "=SUM(B1:B1)" && Raw(Cycle(), "B1") == "=SUM(A1:A1)";
    MutualReference(Cycle(), "A1", "B1");
    MutualReference(Cycle(), "B1", "A1");
  }

  /** The sheet of a cycle with a side operand: `a` sums `b` only, and `b` sums `a` and `c`,
      where `c` holds `7`. */
  predicate CycleWithSide(cells: Cells, a: string, b: string, c: string) {
    && a != b && a != c && b != c
    && Classify(Raw(cells, a)).Sum? && SumKeys(Classify(Raw(cells, a)).range) == [b]
    && Classify(Raw(cells, b)).Sum? && SumKeys(Classify(Raw(cells, b)).range) == [a, c]
    && Raw(cells, c) == "7"
  }

  /** `7` reads as 7. */
  lemma Seven()
    ensures IntToString(7) == "7" && Coerce("7") == 7
  {
    CoerceOfIntToString(7);
  }

  /** Evaluated while `a` is on the stack, `b` meets `a` there, counts it 0, and shows `7`. */
  lemma CycleInner(cells: Cells, a: string, b: string, c: string)
    requires CycleWithSide(cells, a, b, c)
    ensures Eval(cells, b, State(map[], {a})).value == "7"
  {
    var st := State(map[], {a});
    var r := Eval(cells, b, st);
    EvalValue(cells, b, st);
    EvalConsistent(cells, b, st);
    assert a !in r.st.memo;
    assert c in r.st.memo && Agrees(cells, c, r.st.memo[c]);
    Seven();
    var rest := r.st.memo - {b};
    assert [a, c][1..] == [c] && [c][1..] == [];
    assert Total([a, c], rest) == Contribution(rest, a) + Contribution(rest, c) + Total([], rest);
  }

  /** Enumerating `a` first: `b` meets `a` on the stack and shows `7`, so `a` shows `7` too. */
  lemma CycleFromFirst(cells: Cells, a: string, b: string, c: string)
    requires CycleWithSide(cells, a, b, c)
    ensures Eval(cells, a, State(map[], {})).value == "7"
  {
    var st0 := State(map[], {});
    var inner := State(map[], {a});
    CycleInner(cells, a, b, c);
    var s := Eval(cells, b, inner);
    assert b in s.st.memo && s.st.memo[b] == "7";
    SingleRange(cells, b, inner);
    var w := EvalRange(cells, [b], inner);
    assert a !in st0.memo && a !in st0.processing;
    assert State(st0.memo, st0.processing + {a}) == inner;
    EvalSumMemo(cells, a, [b], inner);
    Seven();
    TotalCons(b, [], w.st.memo);
    assert [b] + [] == [b];
    EvalValue(cells, a, st0);
  }

  /** Enumerating `b` first: `a` meets `b` on the stack and is memoised as `0`. */
  lemma CycleFromSecond(cells: Cells, a: string, b: string, c: string)
    requires CycleWithSide(cells, a, b, c)
    ensures var r := Eval(cells, b, State(map[], {}));
      a in r.st.memo && r.st.memo[a] == "0"
  {
    var st0 := State(map[], {});
    var inner := State(map[], {b});
    var s := Eval(cells, a, inner);
    SelfOnStack(cells, a, b, inner);
    assert a in s.st.memo && s.st.memo[a] == "0";
    var keys := [a, c];
    assert keys[0] == a && keys[1..] == [c];
    var w := EvalRange(cells, keys, inner);
    assert w.st == EvalRange(cells, [c], s.st).st;
    assert a in w.st.memo && w.st.memo[a] == "0";
    assert b !in st0.memo && b !in st0.processing;
    assert State(st0.memo, st0.processing + {b}) == inner;
    EvalSumMemo(cells, b, keys, inner);
  }

  /** With a cycle the pass depends on the enumeration order: `a` shows `7` when it comes first
      and `0` when `b` does. */
  lemma CycleOrderMatters(cells: Cells, a: string, b: string, c: string)
    requires CycleWithSide(cells, a, b, c)
    ensures var m1 := Evaluate(cells, [a, b, c]);
      a in m1 && m1[a] == "7"
    ensures var m2 := Evaluate(cells, [b, a, c]);
      a in m2 && m2[a] == "0"
  {
    CycleFromFirst(cells, a, b, c);
    CycleFromSecond(cells, a, b, c);
    var m1 := Eval(cells, a, State(map[], {})).st.memo;
    assert Evaluate(cells, [a, b, c]) == EvaluateKeys(cells, [b, c], m1);
    EvaluateKeysSound(cells, [b, c], m1) by {
      EvalConsistent(cells, a, State(map[], {}));
    }
    var m2 := Eval(cells, b, State(map[], {})).st.memo;
    assert Evaluate(cells, [b, a, c]) == EvaluateKeys(cells, [a, c], m2);
    EvaluateKeysSound(cells, [a, c], m2) by {
      EvalConsistent(cells, b, State(map[], {}));
    }
  }
}

=== FILE: text.dfy ===
/** Character classes, decimal digit strings and the leading-integer reader that both
    the spreadsheet's operand coercion and the task board's id allocation rely on. */
module Text {
  import opened Options

  predicate IsDigit(c: char) { '0' <= c <= '9' }

  /** The class `[A-Z]` under the regular-expression flag `i`: ASCII letters of either case. */
  predicate IsLetter(c: char) { 'A' <= c <= 'Z' || 'a' <= c <= 'z' }

  /** The ASCII white space that JavaScript's number readers skip before a number. */
  predicate IsSpace(c: char) {
    c == ' ' || c == '\t' || c == '\n' || c == '\r' || c == '\U{000B}' || c == '\U{000C}'
  }

  predicate IsSign(c: char) { c == '+' || c == '-' }

  function Min(a: int, b: int): int { if a <= b then a else b }

  function Max(a: int, b: int): int { if a <= b then b else a }

  /** JavaScript truthiness of a `string | null`: present and non-empty. */
  predicate Truthy(o: Option<string>) {
    o.Some? && o.value != ""
  }

  /** The character classes the readers scan runs of. */
  datatype Class = Digits | Letters | Spaces

  predicate In(k: Class, c: char) {
    match k
    case Digits => IsDigit(c)
    case Letters => IsLetter(c)
    case Spaces => IsSpace(c)
  }

  predicate All(s: string, k: Class) {
    forall i :: 0 <= i < |s| ==> In(k, s[i])
  }

  /** Length of the longest prefix of `s` whose characters are all in class `k`. */
  function Span(s: string, k: Class): (n: nat)
    ensures n <= |s|
  {
    if |s| == 0 || !In(k, s[0]) then 0 else 1 + Span(s[1..], k)
  }

  /** The span is a run of `k`-characters that cannot be extended. */
  lemma {:induction false} SpanFacts(s: string, k: Class)
    ensures All(s[..Span(s, k)], k)
    ensures Span(s, k) < |s| ==> !In(k, s[Span(s, k)])
  {
    if |s| > 0 && In(k, s[0]) {
      SpanFacts(s[1..], k);
      assert s[..Span(s, k)] == [s[0]] + s[1..][..Span(s[1..], k)];
    }
  }

  /** A prefix made only of `k`-characters and followed by a character outside `k` (or
      nothing) is exactly the span. */
  lemma {:induction false} SpanOfPrefix(x: string, y: string, k: Class)
    requires All(x, k)
    requires |y| == 0 || !In(k, y[0])
    ensures Span(x + y, k) == |x|
  {
    if |x| > 0 {
      assert (x + y)[1..] == x[1..] + y;
      SpanOfPrefix(x[1..], y, k);
    } else {
      assert x + y == y;
    }
  }

  /** The value of a decimal digit (0 for any other character, which callers never pass). */
  function DigitValue(c: char): nat {
    if IsDigit(c) then (c as int) - ('0' as int) else 0
  }

  function DigitChar(d: nat): (c: char)
    requires d < 10
    ensures IsDigit(c) && DigitValue(c) == d
  {
    (('0' as int) + d) as char
  }

  /** The value of a decimal digit string, most significant digit first (leading zeros allowed). */
  function DigitsValue(s: string): nat
    decreases |s|
  {
    if |s| == 0 then 0
    else 10 * DigitsValue(s[..|s| - 1]) + DigitValue(s[|s| - 1])
  }

  /** Decimal rendering of a natural number without leading zeros, as `Number.prototype.toString`
      writes a safe integer. */
  function NatToString(n: nat): string {
    if n < 10 then [DigitChar(n)] else NatToString(n / 10) + [DigitChar(n % 10)]
  }

  /** Decimal rendering of an integer: a minus sign before the magnitude when negative. */
  function IntToString(n: int): string {
    if n < 0 then "-" + NatToString(-n) else NatToString(n)
  }

  /** The rendering of `n` is a non-empty digit string without a superfluous leading zero that
      denotes `n`. */
  lemma {:induction false} NatToStringDigits(n: nat)
    ensures |NatToString(n)| > 0 && All(NatToString(n), Digits)
    ensures DigitsValue(NatToString(n)) == n
    ensures NatToString(n)[0] == '0' ==> n == 0
  {
    if n >= 10 {
      NatToStringDigits(n / 10);
      var t := NatToString(n / 10);
      var s := t + [DigitChar(n % 10)];
      assert s[..|s| - 1] == t;
    }
  }

  /** A rendered integer starts with a minus sign or a digit. */
  lemma IntToStringHead(n: int)
    ensures |IntToString(n)| > 0
    ensures IntToString(n)[0] == '-' || IsDigit(IntToString(n)[0])
  {
    NatToStringDigits(if n < 0 then -n else n);
  }

  /** The value of the leading digit run of `u`; None when `u` does not start with a digit. */
  function LeadingDigits(u: string): Option<int> {
    var n := Span(u, Digits);
    if n == 0 then None else Some(DigitsValue(u[..n]))
  }

  /** The integer denoted by the leading `[+-]?[0-9]+` of `s` after optional white space, as
      `parseInt(s, 10)` reads it; None (JavaScript's `NaN`) when no digit follows. */
  function LeadingInt(s: string): Option<int> {
    var t := s[Span(s, Spaces)..];
    if |t| > 0 && t[0] == '-' then
      match LeadingDigits(t[1..])
      case Some(v) => Some(-v)
      case None => None
    else if |t| > 0 && t[0] == '+' then
      match LeadingDigits(t[1..])
      case Some(v) => Some(v)
      case None => None
    else
      match LeadingDigits(t)
      case Some(v) => Some(v)
      case None => None
  }

  /** Lenient numeric coercion of a display value, `parseFloat(v) || 0` restricted to integers:
      the leading integer, or 0 when there is none. */
  function Coerce(s: string): int {
    LeadingInt(s).GetOr(0)
  }

  /** A digit run followed by a non-digit (or nothing) reads as its own value. */
  lemma LeadingDigitsOfRun(d: string, rest: string)
    requires |d| > 0 && All(d, Digits)
    requires |rest| == 0 || !IsDigit(rest[0])
    ensures LeadingDigits(d + rest) == Some(DigitsValue(d))
  {
    SpanOfPrefix(d, rest, Digits);
    assert (d + rest)[..|d|] == d;
  }

  /** Text that does not start with white space is read from its first character. */
  lemma LeadingIntNoSpace(s: string)
    requires |s| > 0 && !IsSpace(s[0])
    ensures s[Span(s, Spaces)..] == s
  {
  }

  /** Text starting with a digit is read as its leading digit run. */
  lemma LeadingIntUnsigned(s: string)
    requires |s| > 0 && IsDigit(s[0])
    ensures LeadingInt(s) == LeadingDigits(s)
  {
    LeadingIntNoSpace(s);
  }

  /** Text starting with a minus sign is read as the negated digit run after it. */
  lemma LeadingIntNegative(u: string, v: int)
    requires LeadingDigits(u) == Some(v)
    ensures LeadingInt(['-'] + u) == Some(-v)
  {
    var s := ['-'] + u;
    assert Span(s, Spaces) == 0;
    assert s[0..] == s;
    assert s[1..] == u;
  }

  /** A digit run followed by non-digit text reads as its value. */
  lemma LeadingIntOfRun(d: string, rest: string, v: int)
    requires |d| > 0 && All(d, Digits) && v == DigitsValue(d)
    requires |rest| == 0 || !IsDigit(rest[0])
    ensures LeadingInt(d + rest) == Some(v)
  {
    assert IsDigit((d + rest)[0]);
    LeadingIntUnsigned(d + rest);
    LeadingDigitsOfRun(d, rest);
  }

  /** A minus sign, then a digit run followed by non-digit text, reads as the negated value. */
  lemma LeadingIntOfNegatedRun(d: string, rest: string, v: int)
    requires |d| > 0 && All(d, Digits) && v == DigitsValue(d)
    requires |rest| == 0 || !IsDigit(rest[0])
    ensures LeadingInt(['-'] + (d + rest)) == Some(-v)
  {
    LeadingDigitsOfRun(d, rest);
    LeadingIntNegative(d + rest, v);
  }

  /** Reading back a rendered integer yields that integer, whatever non-digit text follows it. */
  lemma LeadingIntOfIntToString(n: int, rest: string)
    requires |rest| == 0 || !IsDigit(rest[0])
    ensures LeadingInt(IntToString(n) + rest) == Some(n)
  {
    var m: nat := if n < 0 then -n else n;
    var d := NatToString(m);
    NatToStringDigits(m);
    if n < 0 {
      assert IntToString(n) + rest == ['-'] + (d + rest);
      LeadingIntOfNegatedRun(d, rest, -n);
    } else {
      LeadingIntOfRun(d, rest, n);
    }
  }

  /** The round trip of `sum.toString()` followed by `parseFloat`. */
  lemma CoerceOfIntToString(n: int)
    ensures Coerce(IntToString(n)) == n
  {
    LeadingIntOfIntToString(n, "");
    assert IntToString(n) + "" == IntToString(n);
  }

  /** Text without a minus sign never reads as a negative number. */
  lemma LeadingIntWithoutMinus(s: string)
    requires '-' !in s
    ensures LeadingInt(s).Some? ==> LeadingInt(s).value >= 0
  {
    var k := Span(s, Spaces);
    if k < |s| {
      assert s[k..][0] == s[k];
    }
  }

  /** Text that starts with anything but white space, a sign or a digit has no leading number. */
  lemma NoLeadingInt(s: string)
    requires |s| == 0 || !(IsSpace(s[0]) || IsSign(s[0]) || IsDigit(s[0]))
    ensures LeadingInt(s) == None && Coerce(s) == 0
  {
    assert s[0..] == s;
  }
}
